=== FILE: README.md ===
# ProjectFlow and the Mistral agentic client, modelled in Dafny

This project models the decision logic of two small programs in the same repository.

- **The ProjectFlow kanban board (`app.js`).**
  - The state is a list of projects, each with its tasks, plus the id of the active project.
  - Every event handler is a pure transition on that state: add, delete and select a project; add and delete a task; drop a card on a column.
  - The progress percentage and the three column counts are functions of the state.
  - Modules `ProjectFlow` and `BoardStats`.
- **The conversation history of `AgenticLoop` (`agent.py`).**
  - The history starts as one system message.
  - `run` appends the user's message, asks the model gateway, and appends the reply when there is one.
  - `clear_history` keeps only the first entry.
  - Module `Agent`. The gateway is a function parameter that may fail.
- **The command-line loop of `main.py`.**
  - Module `Shell` covers how a typed line is read (blank, slash command or chat), the command dispatch, a chat turn, and the confirm-and-save loop over detected code blocks.
  - Module `Fence` covers the code-block detector, `re.findall` of the pattern on line 134. It is an explicit backtracking matcher that tries alternatives in the regex engine's order, plus the left-to-right, non-overlapping scan.
  - Module `FenceRoundTrip` proves that blocks written in the system prompt's format come back out of the detector.
  - Module `ShellExamples` holds concrete runs.

Helpers:
- `Maybe` holds `Option` and `Result`.
- `Seqs` holds `Filter` and `Find`, the JavaScript `filter` and `find`.
- `Text` holds three things:
  - Python's `str.strip()`, which removes the characters for which `str.isspace()` holds.
  - JavaScript's `trim()`, which removes ECMAScript white space and line terminators.
  - ASCII lower-casing.

Facts about the code that the model keeps as they are:
- **`run` returns a single string.** No usage record comes with it, and `AgenticLoop` keeps no token counters.
- **A failed gateway call changes the history.** The user message is appended before the call, so the history keeps it.
- **The detector is not line-anchored.** Its `\s*` pieces may cross lines. The filename and body are stripped by the save loop, not by the detector.
- **Commands carry a leading `/`.** They are `/exit`, `/quit`, `/clear`, `/stats`, `/save_chat` and `/help`.

Two defects in `main.py` stop every chat turn before any file is saved (see "## Findings"). Each is modelled as written, next to a corrected version. The command loop `Shell.Step` uses the corrected versions, so that the save flow the program evidently intends can be stated and proved.

## Model

| member | source | states |
|---|---|---|
| ProjectFlow.Init | app.js:43-52 | Loading keeps the project list. The first project becomes active when there is one; otherwise no project is active. The active-id invariant holds. |
| ProjectFlow.SelectProject | app.js:147-148 | Only the active id changes. Selecting an id taken from the list keeps the invariant that the active id names a project. |
| ProjectFlow.AddProject | app.js:112-129 | A name that trims to nothing changes nothing. Otherwise exactly one project is appended at the end: fresh id, trimmed name, no tasks. Earlier projects are untouched, the new project becomes active, and the invariant is preserved. |
| ProjectFlow.DeleteProject | app.js:131-145 | Nothing happens without an active id or without confirmation. Otherwise every project with the active id is removed and the rest keep their order. The first remaining project becomes active, or none. The invariant is preserved. |
| ProjectFlow.AddTask | app.js:247-271 | Nothing happens without an active id, with a blank title, or when the active project is not found. Otherwise one `Todo` task with trimmed title and description is appended to the active project only. The active id and all other projects are unchanged. |
| ProjectFlow.DeleteTask | app.js:274-283 | With an active project, exactly the tasks without that id remain in it, in order, and no task with that id is left. The project's id and name, the active id and all other projects are unchanged. |
| ProjectFlow.Drop | app.js:316-334 | Nothing happens without a dragged card or an active project. Otherwise only the first task of the active project with the dragged id takes the column's status; everything else is unchanged. The invariant is preserved. |
| Seqs.Filter | app.js:135 | The result holds exactly the elements that pass the test, and all of them when every element passes. |
| Seqs.FilterConcat | app.js:279 | Filtering a concatenation filters each part and keeps their order. With `Filter`'s contract, this pins the result down to the passing elements in their original order. |
| Seqs.Find | app.js:151 | The index returned is the first whose element passes the test. There is none exactly when no element passes. |
| ProjectFlow.ValidFindsActive | app.js:255 | Under the invariant, the page's `find` of the active project always returns a project. |
| ProjectFlow.AddTaskThenDelete | app.js:247-283 | Adding a task under an id no task of the active project has, then deleting that id, gives back the original board. |
| ProjectFlow.DropIdempotent | app.js:320-331 | Dropping the same card on the same column twice has the effect of dropping it once. |
| ProjectFlow.AddProjectThenDelete | app.js:112-145 | Adding a project under a fresh id and then deleting it, confirmed, gives back the original project list. |
| BoardStats.CountsPartition | app.js:407-409 | Each task is in exactly one column, so the three column counts add up to the number of tasks. |
| BoardStats.Percent | app.js:397 | The percentage is the integer nearest to 100·done/total, with halves rounded up. It is 0 for no tasks or none done, 100 when all are done, and never above 100. |
| BoardStats.Progress | app.js:379-401 | The result is 0 with no active id or no tasks. Otherwise it is the rounded share of `Done` tasks, between 0 and 100, and there is no figure when the active project is missing. |
| BoardStats.Counts | app.js:403-412 | Figures exist exactly when the active project is found. Each column's figure is the number of tasks with exactly that status, and the three sum to the task total. |
| BoardStats.AddTaskCounts | app.js:257-264 | Adding a task raises the `Todo` count by one and leaves the other two counts unchanged. |
| BoardStats.DropCounts | app.js:326-333 | A drop that changes a task's column moves exactly one unit of count from its old column to the new one. The third column is unchanged. |
| Text.Trim | MistralAI-Xybersean-client/main.py:60 | The result is empty exactly when the string is all blanks. Otherwise it begins and ends with a non-blank, is the infix after the leading blanks, and only blanks follow it. |
| Text.TrimIdempotent | MistralAI-Xybersean-client/main.py:65 | Stripping twice is stripping once. |
| Text.Lower | MistralAI-Xybersean-client/main.py:65 | Same length as the input. Each character is lowered if it is an ASCII capital and kept otherwise. |
| Text.LowerIdempotent | MistralAI-Xybersean-client/main.py:65 | Lower-casing twice is lower-casing once, and no ASCII capital remains. |
| Agent.New | MistralAI-Xybersean-client/agent.py:6-17 | A new loop's history is exactly one message: the system role with the system prompt. |
| Agent.Run | MistralAI-Xybersean-client/agent.py:19-29 | The gateway sees the earlier history plus the user message. On success, exactly the user message and then the reply are appended, and the stored reply is the one returned. On failure, only the user message is appended. Earlier entries are unchanged. |
| Agent.Clear | MistralAI-Xybersean-client/agent.py:31-32 | Only the first entry is kept, so clearing a cleared loop changes nothing. |
| Agent.FirstEntryStays | MistralAI-Xybersean-client/agent.py:19-32 | No sequence of runs and clears changes the first history entry. |
| Agent.SeedStays | MistralAI-Xybersean-client/agent.py:8-32 | After any calls since construction, the first entry is the seed system message. |
| Agent.ClearRestoresFirst | MistralAI-Xybersean-client/agent.py:31-32 | Clearing after any calls leaves exactly the first entry. |
| Agent.HistoryGrowth | MistralAI-Xybersean-client/agent.py:20-28 | Starting from a one-entry history, each run adds one entry and each answered run one more. |
| Agent.AnsweredTurns | MistralAI-Xybersean-client/agent.py:20-28 | After k answered runs from a one-entry history, the history is that entry followed by k user/assistant pairs, holding the inputs and replies in order. |
| Agent.AnsweredSinceReset | MistralAI-Xybersean-client/agent.py:8-32 | After k answered runs since construction or the last clear, the history has 2k+1 entries, and the first is the seed. |
| Fence.Accepts | MistralAI-Xybersean-client/main.py:134 | The pattern read declaratively: a splitting is accepted when its head and its tail line up with the text. The engine's matcher is stated against this reading. |
| Fence.AcceptedSpan | MistralAI-Xybersean-client/main.py:134 | An accepted splitting lies inside the text. It opens with three backticks and closes with a newline and three backticks, and its pieces come in the pattern's order. Its filename is non-empty and holds no newline. |
| Fence.FindClose | MistralAI-Xybersean-client/main.py:134 | The lazy body ends at the first closing fence at or after the given position, or at none. |
| Fence.Forced | MistralAI-Xybersean-client/main.py:134 | In any way the pattern's head lines up with the text, the greedy runs before `\n#` and before `filename:` have their full length, so the head leaves no choice. |
| Fence.HeadAt | MistralAI-Xybersean-client/main.py:134 | A head found at p starts at p and lines up with the text. |
| Fence.HeadAtForced | MistralAI-Xybersean-client/main.py:134 | Every head that lines up at p is the one `HeadAt` finds. |
| Fence.TryName | MistralAI-Xybersean-client/main.py:134 | What the filename search returns keeps the head. Its filename starts after `filename:` and no later than the position it started from. |
| Fence.HitAccepted | MistralAI-Xybersean-client/main.py:134 | A filename line under an accepted head, followed by a closing fence, is a splitting the pattern accepts, with no closing fence earlier in its body. |
| Fence.TryNameSound | MistralAI-Xybersean-client/main.py:134 | What the filename search returns is accepted by the pattern and keeps the head. Its body ends at the first closing fence. |
| Fence.TryNameFirst | MistralAI-Xybersean-client/main.py:134 | The filename search finds a splitting whenever one exists under the head, and the first in the engine's order: the most blanks given to `\s*`, then the shortest body. |
| Fence.MatchAt | MistralAI-Xybersean-client/main.py:134 | A match reported at p starts at p. What else it is comes from `MatchAtSound`, `MatchAtFirst` and `MatchAtIs`. |
| Fence.MatchAtSound | MistralAI-Xybersean-client/main.py:134 | A match reported at p starts at p and is accepted by the pattern. No closing fence lies inside its body after the body's first character. |
| Fence.MatchAtFirst | MistralAI-Xybersean-client/main.py:134 | If the pattern accepts any splitting at p, a match is reported there, and it comes first in the engine's order among them. |
| Fence.MatchAtIs | MistralAI-Xybersean-client/main.py:134 | The converse: an accepted splitting whose filename starts at the first non-blank and whose body ends at the first fence is the match reported. |
| Fence.Scan | MistralAI-Xybersean-client/main.py:134 | The scan's matches are each found by the matcher where they start. They lie within the text, in order, and each ends before the next starts. |
| Fence.ScanLayout | MistralAI-Xybersean-client/main.py:134 | The scan reports exactly the matches of any layout: matches with nothing found in the gaps between them. |
| Fence.ScanCovers | MistralAI-Xybersean-client/main.py:134 | The scan misses nothing. Every position where the matcher succeeds starts a reported match or lies inside one. |
| Fence.FindAll | MistralAI-Xybersean-client/main.py:134 | Every match is the engine's match at its start and is accepted by the pattern. Matches are pairwise non-overlapping and in document order. |
| Fence.FindAllCovers | MistralAI-Xybersean-client/main.py:134 | No possible match start is skipped except inside an earlier match. |
| Fence.Groups | MistralAI-Xybersean-client/main.py:134 | The two groups are the text from the filename start to the end of its line, and the text from the next character up to the closing fence. The filename is non-empty and has no newline, and the body is non-empty. |
| Fence.Extract | MistralAI-Xybersean-client/main.py:134 | Pair i is the two groups of match i, so there is one pair per match, in document order. Each filename is non-empty and on one line, and each body is non-empty. |
| Fence.NoTicksNoFiles | MistralAI-Xybersean-client/main.py:134 | Text without three backticks in a row yields no pairs. |
| Fence.BodyEndsAtFirstFence | MistralAI-Xybersean-client/main.py:134 | Each body ends at the first closing fence after its first character. |
| FenceRoundTrip.BlockMatch | MistralAI-Xybersean-client/main.py:134 | A well-formed block written at position a is matched there, split exactly where its pieces meet. |
| FenceRoundTrip.ExtractJoin | MistralAI-Xybersean-client/main.py:134 | Prose without backticks interleaved with well-formed blocks extracts to exactly the blocks' filenames and bodies, in order. |
| FenceRoundTrip.HelloWellFormed | MistralAI-Xybersean-client/agent.py:12-15 | The system prompt's example is a well-formed block named `hello.py`. |
| FenceRoundTrip.ExtractSystemPrompt | MistralAI-Xybersean-client/agent.py:9-16 | The whole system prompt extracts to exactly one pair: `hello.py` with the single `print` line. |
| Shell.Classify | MistralAI-Xybersean-client/main.py:60-65 | A line is blank exactly when it is all whitespace. It is a command exactly when it is not blank and its raw first character is `/`, and the command is the line stripped and lower-cased. Any other line is chat, sent exactly as typed. |
| Shell.ParseCommand | MistralAI-Xybersean-client/main.py:66-106 | Each known command is recognised by exactly its spellings. Any other name is reported back unchanged. |
| Shell.RunCommand | MistralAI-Xybersean-client/main.py:66-106 | Only a quit command stops the loop. Only `/clear` changes the agent, and it clears it. Each command prints one report, and which one is fixed per command. A quit says goodbye and `/clear` confirms. `/stats` reports the error of reading counters the agent does not have. `/save_chat` reports the saved history or the failed write. `/help` shows the help, and any other command is reported as unknown under its own name. |
| Shell.OfferFilesAsWritten | MistralAI-Xybersean-client/main.py:135-137 | As written, a reply with no code block prints nothing more. Otherwise the only thing printed is the one reported `confirm` error at the first file, so no file is offered or saved. |
| Shell.OfferOne | MistralAI-Xybersean-client/main.py:136-143 | In the corrected save loop, the stripped filename is offered. A decline saves nothing, and the stripped body is saved exactly when the user confirms and the write succeeds. |
| Shell.OfferFiles | MistralAI-Xybersean-client/main.py:135-143 | In the corrected save loop, the files are offered in order, one report each. Each outcome depends only on that file and its own answer, so a decline or a failed write leaves the other files' outcomes alone. |
| Shell.ChatTurnAsWritten | MistralAI-Xybersean-client/main.py:108-121 | The history changes as `run` changes it. The turn prints at most two reports and always ends in a reported error, and no file is ever offered. A gateway failure is reported with its error. A reply whose length is not 2 is never shown, only the failed unpacking. A reply is shown only when it has exactly two characters, and then only its first character. |
| Shell.ChatTurn | MistralAI-Xybersean-client/main.py:108-143 | The history changes as `run` changes it. A gateway failure is reported alone. Otherwise the reply is shown, followed by the offers of the extracted files, in order. |
| Shell.Step | MistralAI-Xybersean-client/main.py:56-148 | One pass of the loop, with the corrected chat turn. The loop keeps running unless the line is a quit command, and Ctrl-C is reported. A blank line does nothing. A command is dispatched as `RunCommand` states; it never grows the history and only `/clear` changes it. Chat always grows the history through `run`, and prints what the chat turn prints, so a gateway failure is reported and the loop goes on. |
| Shell.Session | MistralAI-Xybersean-client/main.py:56-68 | The `while True` loop over typed lines. A stopped loop reads nothing more. If the loop is still running at the end, it was running at the start and no quit command was typed. |
| Shell.SessionReplays | MistralAI-Xybersean-client/main.py:56-148 | The agent after a session is the agent model after replaying, in order, a `run` for each chat line and a `clear_history` for each `/clear` typed before the first quit. |
| Shell.SessionKeepsFirst | MistralAI-Xybersean-client/main.py:56-148 | No session changes the agent's first history entry. |
| Shell.KeepsRunning | MistralAI-Xybersean-client/main.py:56-148 | Without a quit command among the inputs, the loop is still running after all of them. |
| Shell.StopsAtQuit | MistralAI-Xybersean-client/main.py:66-68 | The loop stops at the first quit command, and nothing typed after it is read. |
| ShellExamples.PaddedUpperExit | MistralAI-Xybersean-client/main.py:64-68 | `"/EXIT "` is the command `/exit` and quits. |
| ShellExamples.IndentedExitIsChat | MistralAI-Xybersean-client/main.py:64 | `" /exit"` is chat text, and it does not quit. |
| ShellExamples.BlankLine | MistralAI-Xybersean-client/main.py:60-61 | A line of blanks, tabs and newlines is skipped. |
| ShellExamples.MixedCaseCommands | MistralAI-Xybersean-client/main.py:65-72 | `/Clear` is read as `/clear`; `/reset` is unknown. |
| ShellExamples.AsWrittenDropsFiles | MistralAI-Xybersean-client/main.py:109 | A reply that holds a code block ends the turn as written with a failed unpacking, and nothing is offered. |
| ShellExamples.AsWrittenTwoCharacters | MistralAI-Xybersean-client/main.py:109-120 | A two-character reply unpacks. Its first character is shown, then `.get` fails on the second. |
| ShellExamples.HelloOffer | MistralAI-Xybersean-client/main.py:135-141 | Accepting the `hello.py` offer saves its one line under that name. |
| ShellExamples.AsWrittenConfirmFails | MistralAI-Xybersean-client/main.py:135-141 | The system prompt's `hello.py` block ends the as-written save loop in the `confirm` error. The corrected loop offers the block and, when it is accepted, saves it. |
| ShellExamples.CorrectedSavesHello | MistralAI-Xybersean-client/main.py:108-141 | In the corrected turn, the system prompt as a reply is shown, and its `hello.py` block is offered and saved. |

## Left out

- The page's DOM work is not modelled: rendering, modals, event wiring, HTML templates and drag visuals (app.js:97-110, 163-245, 288-310, 336-346, 369-377). These are presentation and change no state.
- `getDragAfterElement` (app.js:352-364) is not modelled. It only decides where a card is shown while dragging, using floating-point geometry.
- `localStorage` loading and `saveData` (app.js:6, 54-56) are not modelled. The loaded project list is the input to `ProjectFlow.Init`.
- `generateId` (app.js:58-60) draws a random string. Fresh ids are parameters instead, and the round-trip lemmas say how fresh they must be.
- The browser's `confirm` dialog (app.js:134) is not modelled. Its answer is the input `confirmed`. In the corrected save loop, the user's answer to each offer is likewise an input, one `Decision` per file.
- Shell.Step: runs the corrected chat turn and save loop. As written, every chat turn ends in a reported error (see "## Findings"), and the loop then reads the next line. The history still changes as `run` changes it, which is what `Shell.ChatTurnAsWritten` states.
- Task statuses are taken to be exactly `todo`, `inprogress` and `done`, the `Status` type. The code never checks this: `drop` copies the column's `data-status` attribute from the page's HTML, which is not part of this model, and stored tasks are loaded as they are. A status outside the three would be kept by the page and counted in no column.
- When the active id names no project, the page throws a `TypeError` partway through a handler. The model keeps the board unchanged, since every throw comes before the first write, and `Progress`/`Counts` give no figure.
- BoardStats.Percent: computes in exact integers. `Math.round((done / total) * 100)` on doubles could differ only where the exact value is a half, if the floating-point product lands just below it.
- Text.Lower: lowers ASCII capitals only. Python's `str.lower()` also lowers other scripts, which changes no known command.
- Fence.IsWord: `\w` is taken as ASCII letters, digits and underscore. Python's `str` patterns also accept other Unicode word characters in the optional language tag.
- `client.py`, the network, the API key prompt and the `.env` writing (main.py:29-54) are not modelled. The model gateway is the function parameter `Agent.Gateway`, and it may fail.
- The `/save_chat` JSON dump (main.py:81-89) is reduced to whether the write succeeds, the `World.chatLogWritable` flag. What it would write is the current history.
- Token counters and the usage table (main.py:74-79, 118-131) are not modelled, because `AgenticLoop` has no such counters. `/stats` is modelled as the `AttributeError` it raises, which is reported.
- File writes are not modelled. A write's success is the `writeOk` input.
- Rich rendering (panels, Markdown, spinner) is not modelled.
- The end of input is not modelled. The `EOFError` from `console.input` would be caught as a generic exception (main.py:147-148), and the loop would read again.
- Ctrl-C is modelled only while the loop waits for a line, the `Interrupted` event. An interrupt during a model call or a save would also be reported and the loop would go on, but the history would depend on where it struck.

## Findings

| source | as written | input that shows it | evidently intended | confidence | as-written member | corrected member |
|---|---|---|---|---|---|---|
| MistralAI-Xybersean-client/main.py:109 | `response_content, usage = agent.run(user_input)` unpacks the single string `run` returns (agent.py:29). Any reply whose length is not 2 raises `ValueError`. A two-character reply unpacks, but then its one-character `usage` has no `.get` (line 120). Either way the turn ends in the generic error report and the save loop (lines 134-143) is never reached. | The system prompt itself as the reply, or `"ok"` | Show the whole reply, then offer every detected code block for saving | not executed | Shell.ChatTurnAsWritten (ShellExamples.AsWrittenDropsFiles, ShellExamples.AsWrittenTwoCharacters) | Shell.ChatTurn (ShellExamples.CorrectedSavesHello) |
| MistralAI-Xybersean-client/main.py:137 | `console.confirm(...)` is called on a Rich `Console` (line 18), which has no `confirm` method; Rich's yes/no prompt is `rich.prompt.Confirm`. Once line 109 is fixed, the first extracted file raises `AttributeError`, which lines 147-148 report. No file is offered or saved. | The system prompt itself as the reply, whose `hello.py` block is extracted | Ask once per file and save the stripped body when the user says yes | not executed | Shell.OfferFilesAsWritten (ShellExamples.AsWrittenConfirmFails) | Shell.OfferFiles (ShellExamples.AsWrittenConfirmFails, ShellExamples.HelloOffer) |

=== FILE: agent.dfy ===
/**
 * `AgenticLoop`: the conversation history sent to the model. It starts as one
 * system message; every turn appends the user's message, asks the gateway,
 * and appends the assistant's reply when there is one.
 */
module Agent {
  import opened Maybe

  datatype Role = System | User | Assistant

  datatype Message = Message(role: Role, content: string)

  /** The system prompt, in short pieces; its middle piece is the example code block it shows the model. */
  const PromptIntro: string :=
    "You are a highly skilled AI App "
      + "Builder and Agent. Your goal is to "
      + "help the user build applications, "
      + "write code, and solve complex "
      + "problems. \n\nYou reason "
      + "step-by-step. When you generate "
      + "code that should be saved to a "
      + "file, use a code block with a "
      + "filename comment on the first "
      + "line, like this:\n"

  const PromptExample: string :=
    "```" + "python" + "\n# filename: " + "hello.py" + "\n" + "print(\"Hello World\")" + "\n```"

  const PromptOutro: string :=
    "\nThe system will detect these and "
      + "provide an easy way to save them."

  const SystemPrompt: string := PromptIntro + PromptExample + PromptOutro

  /** The message every history starts with. */
  const Seed: Message := Message(System, SystemPrompt)

  /** A history is never empty: nothing ever removes its first entry. */
  type History = h: seq<Message> | |h| > 0 witness [Message(System, "")]

  datatype Loop = Loop(history: History)

  /**
   * The model gateway: it is handed the whole history and either returns the
   * reply's content or raises (network, authentication, rate limit, ...).
   */
  type Gateway = seq<Message> -> Result<string, string>

  /** `AgenticLoop.__init__`. */
  function New(): (l: Loop)
    ensures |l.history| == 1
    ensures l.history[0].role == System && l.history[0].content == SystemPrompt
  {
    Loop([Seed])
  }

  /** What `run` leaves behind: the new loop, and the returned content or the error that escaped. */
  datatype Turn = Turn(loop: Loop, result: Result<string, string>)

  /**
   * `AgenticLoop.run`: the user message is appended before the gateway is
   * called, so a failing call leaves it in the history with no reply after it.
   */
  function Run(l: Loop, input: string, chat: Gateway): (t: Turn)
    ensures var asked := l.history + [Message(User, input)];
      && t.result == chat(asked)
      && |t.loop.history| == |l.history| + (if t.result.Success? then 2 else 1)
      && t.loop.history[..|l.history| + 1] == asked
      && (t.result.Success? ==> t.loop.history[|l.history| + 1] == Message(Assistant, t.result.value))
  {
    var asked := l.history + [Message(User, input)];
    match chat(asked)
    case Success(content) => Turn(Loop(asked + [Message(Assistant, content)]), Success(content))
    case Failure(e) => Turn(Loop(asked), Failure(e))
  }

  /** `AgenticLoop.clear_history`: only the first entry is kept. */
  function Clear(l: Loop): (r: Loop)
    ensures r.history == [l.history[0]]
    ensures |l.history| == 1 ==> r == l
  {
    Loop([l.history[0]])
  }

  /** One call on the loop: a `run` whose gateway answers `reply`, or a `clear_history`. */
  datatype Op = Say(input: string, reply: Result<string, string>) | Reset

  function Apply(l: Loop, op: Op): Loop {
    match op
    case Say(input, reply) => Run(l, input, (_: seq<Message>) => reply).loop
    case Reset => Clear(l)
  }

  /** The loop after performing `ops` in order, starting from `l`. */
  function ReplayFrom(l: Loop, ops: seq<Op>): Loop
    decreases |ops|
  {
    if ops == [] then l else Apply(ReplayFrom(l, ops[..|ops| - 1]), ops[|ops| - 1])
  }

  /** The loop after constructing it and then performing `ops` in order. */
  function Replay(ops: seq<Op>): Loop {
    ReplayFrom(New(), ops)
  }

  /** Whatever happens, the first history entry stays the one the loop started with. */
  lemma {:induction false} FirstEntryStays(l: Loop, ops: seq<Op>)
    ensures ReplayFrom(l, ops).history[0] == l.history[0]
    decreases |ops|
  {
    if ops != [] {
      FirstEntryStays(l, ops[..|ops| - 1]);
    }
  }

  /** Whatever happened since construction, the first entry is the seed system message. */
  lemma SeedStays(ops: seq<Op>)
    ensures Replay(ops).history[0] == Seed
  {
    FirstEntryStays(New(), ops);
  }

  /** Clearing after any sequence of calls leaves exactly the first entry. */
  lemma ClearRestoresFirst(l: Loop, ops: seq<Op>)
    ensures ReplayFrom(l, ops + [Reset]).history == [l.history[0]]
  {
    assert (ops + [Reset])[..|ops|] == ops;
    FirstEntryStays(l, ops);
  }

  /** The number of answered turns among `ops`. */
  function Answered(ops: seq<Op>): nat
    decreases |ops|
  {
    if ops == [] then 0
    else Answered(ops[..|ops| - 1]) + (if ops[|ops| - 1].Say? && ops[|ops| - 1].reply.Success? then 1 else 0)
  }

  /**
   * Starting from a single-entry history (a new loop, or one just cleared),
   * each turn adds one entry, and each answered turn one more.
   */
  lemma {:induction false} HistoryGrowth(l: Loop, ops: seq<Op>)
    requires |l.history| == 1
    requires forall j :: 0 <= j < |ops| ==> ops[j].Say?
    ensures |ReplayFrom(l, ops).history| == 1 + |ops| + Answered(ops)
    decreases |ops|
  {
    if ops != [] {
      HistoryGrowth(l, ops[..|ops| - 1]);
    }
  }

  /**
   * Starting from a single-entry history, after k answered turns the history
   * is that entry followed by k user/assistant pairs in order: 2k+1 entries.
   */
  lemma {:induction false} AnsweredTurns(l: Loop, ops: seq<Op>)
    requires |l.history| == 1
    requires forall j :: 0 <= j < |ops| ==> ops[j].Say? && ops[j].reply.Success?
    ensures var h := ReplayFrom(l, ops).history;
      && |h| == 2 * |ops| + 1
      && h[0] == l.history[0]
      && forall j :: 0 <= j < |ops| ==>
           h[2 * j + 1] == Message(User, ops[j].input) && h[2 * j + 2] == Message(Assistant, ops[j].reply.value)
    decreases |ops|
  {
    if ops != [] {
      var init := ops[..|ops| - 1];
      AnsweredTurns(l, init);
      var h0 := ReplayFrom(l, init).history;
      var h := ReplayFrom(l, ops).history;
      var op := ops[|ops| - 1];
      assert h == h0 + [Message(User, op.input), Message(Assistant, op.reply.value)];
      AppendPair(h0, h, init, ops);
    }
  }

  /** Extending an interleaved history by one more answered turn keeps it interleaved. */
  lemma AppendPair(h0: seq<Message>, h: seq<Message>, init: seq<Op>, ops: seq<Op>)
    requires |ops| > 0 && init == ops[..|ops| - 1]
    requires forall j :: 0 <= j < |ops| ==> ops[j].Say? && ops[j].reply.Success?
    requires |h0| == 2 * |init| + 1
    requires forall j :: 0 <= j < |init| ==>
      h0[2 * j + 1] == Message(User, init[j].input) && h0[2 * j + 2] == Message(Assistant, init[j].reply.value)
    requires var op := ops[|ops| - 1];
      h == h0 + [Message(User, op.input), Message(Assistant, op.reply.value)]
    ensures forall j :: 0 <= j < |ops| ==>
      h[2 * j + 1] == Message(User, ops[j].input) && h[2 * j + 2] == Message(Assistant, ops[j].reply.value)
  {
    forall j | 0 <= j < |ops|
      ensures h[2 * j + 1] == Message(User, ops[j].input) && h[2 * j + 2] == Message(Assistant, ops[j].reply.value)
    {
      if j < |init| {
        assert ops[j] == init[j];
      }
    }
  }

  /**
   * After k answered turns since construction or since the last clear, the
   * history is the seed and k user/assistant pairs: 2k+1 entries.
   */
  lemma AnsweredSinceReset(before: seq<Op>, after: seq<Op>)
    requires before == [] || before[|before| - 1] == Reset
    requires forall j :: 0 <= j < |after| ==> after[j].Say? && after[j].reply.Success?
    ensures |Replay(before + after).history| == 2 * |after| + 1
    ensures Replay(before + after).history[0] == Seed
  {
    var l := Replay(before);
    if before != [] {
      ClearRestoresFirst(New(), before[..|before| - 1]);
      assert before[..|before| - 1] + [Reset] == before;
    }
    assert |l.history| == 1;
    ReplayConcat(New(), before, after);
    AnsweredTurns(l, after);
    SeedStays(before + after);
  }

  lemma {:induction false} ReplayConcat(l: Loop, a: seq<Op>, b: seq<Op>)
    ensures ReplayFrom(l, a + b) == ReplayFrom(ReplayFrom(l, a), b)
    decreases |b|
  {
    if b == [] {
      assert a + b == a;
    } else {
      assert (a + b)[..|a + b| - 1] == a + b[..|b| - 1];
      ReplayConcat(l, a, b[..|b| - 1]);
    }
  }
}

=== FILE: board_stats.dfy ===
/**
 * The two figures the board shows for the active project: the progress
 * percentage and the number of tasks in each column.
 */
module BoardStats {
  import opened Maybe
  import opened Seqs
  import opened ProjectFlow
  import Text

  function HasStatus(s: Status): Task -> bool {
    (t: Task) => t.status == s
  }

  /** `tasks.filter(t => t.status === s).length`. */
  function CountStatus(ts: seq<Task>, s: Status): nat {
    |Filter(ts, HasStatus(s))|
  }

  /** How a single task contributes to the count of column `s`. */
  function Unit(t: Task, s: Status): nat {
    if t.status == s then 1 else 0
  }

  lemma {:induction false} CountConcat(a: seq<Task>, b: seq<Task>, s: Status)
    ensures CountStatus(a + b, s) == CountStatus(a, s) + CountStatus(b, s)
  {
    FilterConcat(a, b, HasStatus(s));
  }

  lemma CountSingle(t: Task, s: Status)
    ensures CountStatus([t], s) == Unit(t, s)
  {
    assert [t][1..] == [];
  }

  /** Every task sits in exactly one column, so the three counts add up to the task total. */
  lemma {:induction false} CountsPartition(ts: seq<Task>)
    ensures CountStatus(ts, Todo) + CountStatus(ts, InProgress) + CountStatus(ts, Done) == |ts|
    decreases |ts|
  {
    if |ts| > 0 {
      assert ts == [ts[0]] + ts[1..];
      CountConcat([ts[0]], ts[1..], Todo);
      CountConcat([ts[0]], ts[1..], InProgress);
      CountConcat([ts[0]], ts[1..], Done);
      CountSingle(ts[0], Todo);
      CountSingle(ts[0], InProgress);
      CountSingle(ts[0], Done);
      CountsPartition(ts[1..]);
    }
  }

  /** Replacing one task moves its contribution from its old column to its new one. */
  lemma CountUpdate(ts: seq<Task>, k: nat, t: Task, s: Status)
    requires k < |ts|
    ensures CountStatus(ts[k := t], s) + Unit(ts[k], s) == CountStatus(ts, s) + Unit(t, s)
  {
    assert ts == ts[..k] + [ts[k]] + ts[k + 1..];
    assert ts[k := t] == ts[..k] + [t] + ts[k + 1..];
    CountConcat(ts[..k] + [ts[k]], ts[k + 1..], s);
    CountConcat(ts[..k], [ts[k]], s);
    CountConcat(ts[..k] + [t], ts[k + 1..], s);
    CountConcat(ts[..k], [t], s);
    CountSingle(ts[k], s);
    CountSingle(t, s);
  }

  /**
   * `Math.round(done / total * 100)` in integers, with the page's 0 for an
   * empty project: the whole number nearest to 100·done/total, halves rounded up.
   */
  function Percent(done: nat, total: nat): (r: nat)
    ensures total == 0 ==> r == 0
    ensures total > 0 ==> 2 * r * total <= 200 * done + total < 2 * r * total + 2 * total
    ensures done <= total ==> r <= 100
    ensures done == 0 ==> r == 0
    ensures 0 < total && done == total ==> r == 100
  {
    if total == 0 then 0
    else
      var r := (200 * done + total) / (2 * total);
      PercentBounds(done, total, r);
      r
  }

  lemma PercentBounds(done: nat, total: nat, r: nat)
    requires total > 0 && r == (200 * done + total) / (2 * total)
    ensures 2 * r * total <= 200 * done + total < 2 * r * total + 2 * total
    ensures done <= total ==> r <= 100
    ensures done == 0 ==> r == 0
    ensures done == total ==> r == 100
  {
    var m := 2 * total;
    var a := 200 * done + total;
    DivFloor(a, m);
    assert m * r == 2 * r * total;
    if done <= total && r > 100 {
      MulMono(m, 101, r);
      assert false;
    }
    if done == 0 && r > 0 {
      MulMono(m, 1, r);
      assert false;
    }
    if done == total && r < 100 {
      MulMono(m, r, 99);
      assert false;
    }
  }

  lemma DivFloor(a: nat, m: nat)
    requires m > 0
    ensures m * (a / m) <= a < m * (a / m) + m
  {
  }

  lemma MulMono(m: nat, x: nat, y: nat)
    requires x <= y
    ensures m * x <= m * y
  {
  }

  /**
   * `updateProgress`: 0 without an active id or for a project without tasks,
   * otherwise the rounded share of `Done` tasks; `None` when the active id
   * names no project and the page throws instead.
   */
  function Progress(b: Board): (r: Option<nat>)
    ensures !HasActive(b) ==> r == Some(0)
    ensures HasActive(b) ==> (r.None? <==> ActiveIndex(b).None?)
    ensures r.Some? ==> r.value <= 100
    ensures ActiveIndex(b).Some? ==>
      var ts := b.projects[ActiveIndex(b).value].tasks;
      && (ts == [] ==> r == Some(0))
      && (ts != [] ==> 2 * r.value * |ts| <= 200 * CountStatus(ts, Done) + |ts| < 2 * r.value * |ts| + 2 * |ts|)
      && (CountStatus(ts, Done) == 0 ==> r == Some(0))
      && (ts != [] && CountStatus(ts, Done) == |ts| ==> r == Some(100))
  {
    if !HasActive(b) then Some(0)
    else match ActiveIndex(b)
      case None => None
      case Some(i) =>
        var ts := b.projects[i].tasks;
        Some(Percent(CountStatus(ts, Done), |ts|))
  }

  datatype ColumnCounts = ColumnCounts(todo: nat, inProgress: nat, done: nat)

  /**
   * `updateCounts`: the number of tasks of the active project in each column;
   * `None` when no figures are written (no active id, or the page throws).
   */
  function Counts(b: Board): (r: Option<ColumnCounts>)
    ensures r.Some? <==> ActiveIndex(b).Some?
    ensures r.Some? ==>
      var ts := b.projects[ActiveIndex(b).value].tasks;
      && r.value.todo + r.value.inProgress + r.value.done == |ts|
      && r.value.todo == CountStatus(ts, Todo)
      && r.value.inProgress == CountStatus(ts, InProgress)
      && r.value.done == CountStatus(ts, Done)
  {
    match ActiveIndex(b)
    case None => None
    case Some(i) =>
      var ts := b.projects[i].tasks;
      CountsPartition(ts);
      Some(ColumnCounts(CountStatus(ts, Todo), CountStatus(ts, InProgress), CountStatus(ts, Done)))
  }

  /** Adding a task to a project raises its `Todo` count by one and leaves the other columns alone. */
  lemma AddTaskCounts(b: Board, title: string, desc: string, freshId: Id)
    requires Counts(b).Some?
    requires Text.JsTrim(title) != []
    ensures Counts(AddTask(b, title, desc, freshId)) == Some(Counts(b).value.(todo := Counts(b).value.todo + 1))
  {
    var i := ActiveIndex(b).value;
    var r := AddTask(b, title, desc, freshId);
    var t := Task(freshId, Text.JsTrim(title), Text.JsTrim(desc), Todo);
    var ts := b.projects[i].tasks;
    AddTaskKeepsActive(b, title, desc, freshId);
    AppendTodo(ts, t);
  }

  /** Adding a task keeps the active project and appends the task to it. */
  lemma AddTaskKeepsActive(b: Board, title: string, desc: string, freshId: Id)
    requires ActiveIndex(b).Some? && Text.JsTrim(title) != []
    ensures var i := ActiveIndex(b).value;
      && ActiveIndex(AddTask(b, title, desc, freshId)) == Some(i)
      && AddTask(b, title, desc, freshId).projects[i].tasks
         == b.projects[i].tasks + [Task(freshId, Text.JsTrim(title), Text.JsTrim(desc), Todo)]
  {
    var r := AddTask(b, title, desc, freshId);
    assert forall j :: 0 <= j < |r.projects| ==> r.projects[j].id == b.projects[j].id;
  }

  /** Appending a `Todo` task adds one to the `Todo` count only. */
  lemma AppendTodo(ts: seq<Task>, t: Task)
    requires t.status == Todo
    ensures CountStatus(ts + [t], Todo) == CountStatus(ts, Todo) + 1
    ensures CountStatus(ts + [t], InProgress) == CountStatus(ts, InProgress)
    ensures CountStatus(ts + [t], Done) == CountStatus(ts, Done)
  {
    CountConcat(ts, [t], Todo);
    CountConcat(ts, [t], InProgress);
    CountConcat(ts, [t], Done);
    CountSingle(t, Todo);
    CountSingle(t, InProgress);
    CountSingle(t, Done);
  }

  /**
   * A drop that changes a task's column moves exactly one task from the old
   * column's count to the new one's and leaves the third count alone.
   */
  lemma DropCounts(b: Board, dragged: Id, column: Status)
    requires Counts(b).Some?
    requires var ts := b.projects[ActiveIndex(b).value].tasks;
      Find(ts, IsTask(dragged)).Some? && ts[Find(ts, IsTask(dragged)).value].status != column
    ensures var ts := b.projects[ActiveIndex(b).value].tasks;
      var from := ts[Find(ts, IsTask(dragged)).value].status;
      var c := Counts(b).value;
      var c' := Counts(Drop(b, Some(dragged), column)).value;
      && Counts(Drop(b, Some(dragged), column)).Some?
      && Get(c', from) + 1 == Get(c, from)
      && Get(c', column) == Get(c, column) + 1
      && (forall s :: s != from && s != column ==> Get(c', s) == Get(c, s))
  {
    var i := ActiveIndex(b).value;
    var ts := b.projects[i].tasks;
    var k := Find(ts, IsTask(dragged)).value;
    var r := Drop(b, Some(dragged), column);
    DropKeepsActive(b, dragged, column);
    MoveCounts(ts, k, column);
    GetCounts(Counts(b).value, ts);
    GetCounts(Counts(r).value, ts[k := ts[k].(status := column)]);
  }

  /** A drop that changes a task's column keeps the active project and updates that one task. */
  lemma DropKeepsActive(b: Board, dragged: Id, column: Status)
    requires ActiveIndex(b).Some?
    requires var ts := b.projects[ActiveIndex(b).value].tasks;
      Find(ts, IsTask(dragged)).Some? && ts[Find(ts, IsTask(dragged)).value].status != column
    ensures var i := ActiveIndex(b).value;
      var ts := b.projects[i].tasks;
      var k := Find(ts, IsTask(dragged)).value;
      && ActiveIndex(Drop(b, Some(dragged), column)) == Some(i)
      && Drop(b, Some(dragged), column).projects[i].tasks == ts[k := ts[k].(status := column)]
  {
    var r := Drop(b, Some(dragged), column);
    assert forall j :: 0 <= j < |r.projects| ==> r.projects[j].id == b.projects[j].id;
  }

  /** Moving task `k` to another column moves one unit of count from its old column to the new one. */
  lemma MoveCounts(ts: seq<Task>, k: nat, column: Status)
    requires k < |ts| && ts[k].status != column
    ensures var ts', from := ts[k := ts[k].(status := column)], ts[k].status;
      && CountStatus(ts', from) + 1 == CountStatus(ts, from)
      && CountStatus(ts', column) == CountStatus(ts, column) + 1
      && forall s :: s != from && s != column ==> CountStatus(ts', s) == CountStatus(ts, s)
  {
    var moved := ts[k].(status := column);
    forall s: Status ensures CountStatus(ts[k := moved], s) + Unit(ts[k], s) == CountStatus(ts, s) + Unit(moved, s) {
      CountUpdate(ts, k, moved, s);
    }
  }

  /** Counts that agree with `ts` column by column give each column's count of `ts`. */
  lemma GetCounts(c: ColumnCounts, ts: seq<Task>)
    requires c.todo == CountStatus(ts, Todo) && c.inProgress == CountStatus(ts, InProgress) && c.done == CountStatus(ts, Done)
    ensures forall s :: Get(c, s) == CountStatus(ts, s)
  {
    forall s ensures Get(c, s) == CountStatus(ts, s) {
      match s
      case Todo =>
      case InProgress =>
      case Done =>
    }
  }

  /** The count of column `s`. */
  function Get(c: ColumnCounts, s: Status): nat {
    match s
    case Todo => c.todo
    case InProgress => c.inProgress
    case Done => c.done
  }
}

=== FILE: fence.dfy ===
/**
 * The code-block detector of the command-line client: Python's
 * `re.findall` of the pattern
 *
 *     ```(?:\w+)?\s*\n#\s*filename:\s*(.+)\n([\s\S]+?)\n```
 *
 * written out as an explicit backtracking matcher. `Accepts` says which
 * splittings of the text the pattern admits; `MatchAt` returns the one the
 * regex engine reaches first; `FindAll` scans left to right and resumes
 * after each match, as `findall` does. The pattern's `\s` is
 * `Text.PySpace`, the whitespace of a `str` pattern.
 */
module Fence {
  import opened Maybe
  import Text

  /** `\w` on ASCII text: letters, digits and underscore. */
  predicate IsWord(c: char) {
    ('a' <= c <= 'z') || ('A' <= c <= 'Z') || ('0' <= c <= '9') || c == '_'
  }

  /** `.` without DOTALL: anything but a newline. */
  predicate NotNewline(c: char) {
    c != '\n'
  }

  /** Every character of `t[i..j]` is in class `p`. */
  predicate All(t: string, i: nat, j: nat, p: char -> bool)
    requires i <= j <= |t|
  {
    forall k {:trigger p(t[k])} :: i <= k < j ==> p(t[k])
  }

  /** Where a greedy `p*` starting at `i` stops: the end of the run of class-`p` characters. */
  function RunEnd(t: string, i: nat, p: char -> bool): (j: nat)
    requires i <= |t|
    ensures i <= j <= |t|
    ensures All(t, i, j, p)
    ensures j == |t| || !p(t[j])
    decreases |t| - i
  {
    if i < |t| && p(t[i]) then RunEnd(t, i + 1, p) else i
  }

  /** A run of class-`p` characters that ends before a non-`p` character is the greedy run. */
  lemma RunEndIs(t: string, i: nat, j: nat, p: char -> bool)
    requires i <= j <= |t| && All(t, i, j, p)
    requires j == |t| || !p(t[j])
    ensures RunEnd(t, i, p) == j
  {
  }

  /** Any run of class-`p` characters from `i` lies inside the greedy one. */
  lemma RunEndCovers(t: string, i: nat, j: nat, p: char -> bool)
    requires i <= j <= |t| && All(t, i, j, p)
    ensures j <= RunEnd(t, i, p)
  {
  }

  /** Three backticks start at `k`. */
  predicate TicksAt(t: string, k: nat) {
    k + 3 <= |t| && t[k] == '`' && t[k + 1] == '`' && t[k + 2] == '`'
  }

  /** The closing `\n```` starts at `k`. */
  predicate CloseAt(t: string, k: nat) {
    k + 4 <= |t| && t[k] == '\n' && TicksAt(t, k + 1)
  }

  /** The literal `filename:` starts at `k`. */
  predicate KeywordAt(t: string, k: nat) {
    k + 9 <= |t| && t[k..k + 9] == "filename:"
  }

  /**
   * The lazy `([\s\S]+?)\n```` from body start `i - 1`: the first closing
   * fence at or after `i`, so that the body holds at least one character.
   */
  function FindClose(t: string, i: nat): (r: Option<nat>)
    ensures r.Some? ==> i <= r.value && CloseAt(t, r.value)
    ensures r.Some? ==> forall k :: i <= k < r.value ==> !CloseAt(t, k)
    ensures r.None? ==> forall k :: i <= k ==> !CloseAt(t, k)
    decreases |t| - i
  {
    if i >= |t| then None
    else if CloseAt(t, i) then Some(i)
    else FindClose(t, i + 1)
  }

  lemma FindCloseIs(t: string, i: nat, c: nat)
    requires i <= c && CloseAt(t, c)
    requires forall k :: i <= k < c ==> !CloseAt(t, k)
    ensures FindClose(t, i) == Some(c)
  {
  }

  /**
   * One way of lining the pattern up with the text, by the positions where
   * its pieces meet: the opening fence at `start`, the optional language tag
   * up to `wordEnd`, the newline closing `\s*\n` at `nl` (then `#`), the
   * keyword at `kw`, the filename group `[nameStart, nameEnd)` and its
   * newline, the body group `[nameEnd + 1, bodyEnd)` and the closing fence.
   */
  datatype Split = Split(start: nat, wordEnd: nat, nl: nat, kw: nat, nameStart: nat, nameEnd: nat, bodyEnd: nat)
  {
    /** Where the match ends and `findall` resumes. */
    function End(): nat {
      bodyEnd + 4
    }
  }

  /** The part of the pattern up to and including `filename:` lines up with `t` as `s` says. */
  predicate HeadOk(t: string, s: Split) {
    && TicksAt(t, s.start)
    && s.start + 3 <= s.wordEnd <= s.nl
    && s.nl + 2 <= s.kw
    && KeywordAt(t, s.kw)
    && All(t, s.start + 3, s.wordEnd, IsWord)
    && All(t, s.wordEnd, s.nl, Text.PySpace)
    && t[s.nl] == '\n'
    && t[s.nl + 1] == '#'
    && All(t, s.nl + 2, s.kw, Text.PySpace)
  }

  /** The rest of the pattern, from the `\s*` after `filename:` to the closing fence. */
  predicate TailOk(t: string, s: Split) {
    && s.kw + 9 <= s.nameStart < s.nameEnd
    && s.nameEnd + 1 < s.bodyEnd
    && CloseAt(t, s.bodyEnd)
    && All(t, s.kw + 9, s.nameStart, Text.PySpace)
    && All(t, s.nameStart, s.nameEnd, NotNewline)
    && t[s.nameEnd] == '\n'
  }

  /** The pattern matches `t[s.start..s.End()]` with the pieces placed as `s` says. */
  predicate Accepts(t: string, s: Split) {
    HeadOk(t, s) && TailOk(t, s)
  }

  /**
   * What an accepted splitting spans: it lies inside the text, opens with
   * three backticks, closes with a newline and three backticks, and its
   * pieces come in the pattern's order with a one-line, non-empty filename.
   */
  lemma AcceptedSpan(t: string, s: Split)
    requires Accepts(t, s)
    ensures s.start + 3 <= s.nl < s.kw < s.nameStart < s.nameEnd < s.bodyEnd < s.End() <= |t|
    ensures t[s.start..s.start + 3] == "```" && t[s.bodyEnd..s.End()] == "\n```"
    ensures '\n' !in t[s.nameStart..s.nameEnd]
  {
    var name := t[s.nameStart..s.nameEnd];
    forall k | 0 <= k < |name|
      ensures name[k] != '\n'
    {
      assert name[k] == t[s.nameStart + k];
      assert NotNewline(t[s.nameStart + k]);
    }
  }

  /**
   * The order in which the regex engine tries alternatives: more of the
   * greedy `\s*` before the filename first, then a shorter lazy body.
   */
  predicate Before(s: Split, s': Split) {
    s.nameStart > s'.nameStart || (s.nameStart == s'.nameStart && s.bodyEnd < s'.bodyEnd)
  }

  predicate SameHead(s: Split, h: Split) {
    s.start == h.start && s.wordEnd == h.wordEnd && s.nl == h.nl && s.kw == h.kw
  }

  /**
   * In a splitting whose head lines up, everything up to the filename is
   * forced: each greedy run there is followed by a character it cannot
   * absorb.
   */
  lemma Forced(t: string, s: Split)
    requires HeadOk(t, s)
    ensures s.wordEnd == RunEnd(t, s.start + 3, IsWord)
    ensures s.nl + 1 == RunEnd(t, s.wordEnd, Text.PySpace)
    ensures s.kw == RunEnd(t, s.nl + 2, Text.PySpace)
  {
    assert !IsWord(t[s.wordEnd]) by {
      if s.wordEnd < s.nl { assert Text.PySpace(t[s.wordEnd]); }
    }
    RunEndIs(t, s.start + 3, s.wordEnd, IsWord);
    RunEndIs(t, s.wordEnd, s.nl + 1, Text.PySpace);
    assert t[s.kw] == "filename:"[0] == 'f' by {
      assert t[s.kw..s.kw + 9][0] == t[s.kw];
    }
    RunEndIs(t, s.nl + 2, s.kw, Text.PySpace);
  }

  /**
   * Tries filename starts `x`, `x - 1`, ..., down to just after `filename:`,
   * as the greedy `\s*` gives characters back; for each, `(.+)` runs to the
   * end of the line and the lazy body to the first closing fence.
   */
  function TryName(t: string, h: Split, x: nat): (r: Option<Split>)
    requires h.kw + 9 <= x <= |t|
    ensures r.Some? ==> SameHead(r.value, h) && h.kw + 9 <= r.value.nameStart <= x
    decreases x
  {
    var e := RunEnd(t, x, NotNewline);
    var close := FindClose(t, e + 2);
    if x < e < |t| && close.Some? then
      Some(h.(nameStart := x, nameEnd := e, bodyEnd := close.value))
    else if x == h.kw + 9 then None
    else TryName(t, h, x - 1)
  }

  /**
   * What `TryName` finds under an accepted head is accepted: it keeps the
   * head, starts the filename no later than `x`, and ends the body at the
   * first closing fence.
   */
  lemma {:induction false} TryNameSound(t: string, h: Split, x: nat)
    requires HeadOk(t, h)
    requires h.kw + 9 <= x <= RunEnd(t, h.kw + 9, Text.PySpace)
    ensures var r := TryName(t, h, x);
      r.Some? ==>
        && Accepts(t, r.value) && SameHead(r.value, h) && r.value.nameStart <= x
        && forall k :: r.value.nameEnd + 2 <= k < r.value.bodyEnd ==> !CloseAt(t, k)
    decreases x
  {
    var e := RunEnd(t, x, NotNewline);
    var close := FindClose(t, e + 2);
    if x < e < |t| && close.Some? {
      TryNameHit(t, h, x, e, close.value);
      HitAccepted(t, h, x, e, close.value);
    } else if x > h.kw + 9 {
      TryNameSound(t, h, x - 1);
    }
  }

  /** A filename line followed by a closing fence, under an accepted head, makes an accepted splitting. */
  lemma HitAccepted(t: string, h: Split, x: nat, e: nat, c: nat)
    requires HeadOk(t, h)
    requires h.kw + 9 <= x <= RunEnd(t, h.kw + 9, Text.PySpace)
    requires RunEnd(t, x, NotNewline) == e && x < e < |t| && FindClose(t, e + 2) == Some(c)
    ensures var s := h.(nameStart := x, nameEnd := e, bodyEnd := c);
      && Accepts(t, s)
      && forall k :: s.nameEnd + 2 <= k < s.bodyEnd ==> !CloseAt(t, k)
  {
    var s := h.(nameStart := x, nameEnd := e, bodyEnd := c);
    assert HeadOk(t, s);
    assert All(t, s.kw + 9, x, Text.PySpace);
  }

  /** `TryName` finds the first splitting, in the engine's order, among those it may try. */
  lemma {:induction false} TryNameFirst(t: string, h: Split, x: nat, s: Split)
    requires HeadOk(t, h)
    requires h.kw + 9 <= x <= RunEnd(t, h.kw + 9, Text.PySpace)
    requires Accepts(t, s) && SameHead(s, h) && s.nameStart <= x
    ensures TryName(t, h, x).Some?
    ensures s == TryName(t, h, x).value || Before(TryName(t, h, x).value, s)
    decreases x
  {
    if s.nameStart == x {
      TryNameAt(t, h, s);
    } else {
      var e := RunEnd(t, x, NotNewline);
      if !(x < e < |t| && FindClose(t, e + 2).Some?) {
        TryNameFirst(t, h, x - 1, s);
      }
    }
  }

  /** Tried at the filename start of an accepted splitting, `TryName` succeeds with a body no longer than its. */
  lemma TryNameAt(t: string, h: Split, s: Split)
    requires HeadOk(t, h)
    requires h.kw + 9 <= s.nameStart <= RunEnd(t, h.kw + 9, Text.PySpace)
    requires Accepts(t, s) && SameHead(s, h)
    ensures TryName(t, h, s.nameStart).Some?
    ensures s == TryName(t, h, s.nameStart).value || Before(TryName(t, h, s.nameStart).value, s)
  {
    RunEndIs(t, s.nameStart, s.nameEnd, NotNewline);
    var close := FindClose(t, s.nameEnd + 2);
    assert close.Some? && close.value <= s.bodyEnd;
    TryNameHit(t, h, s.nameStart, s.nameEnd, close.value);
  }

  /**
   * The head of the pattern at `p`, up to and including `filename:`. It
   * leaves no choice: the greedy runs before `\n#` and before `filename:`
   * can only succeed at their full length.
   */
  function HeadAt(t: string, p: nat): (r: Option<Split>)
    ensures r.Some? ==> r.value.start == p && HeadOk(t, r.value)
  {
    if !TicksAt(t, p) then None
    else
      var w := RunEnd(t, p + 3, IsWord);
      var sp := RunEnd(t, w, Text.PySpace);
      if !(w < sp && t[sp - 1] == '\n' && sp < |t| && t[sp] == '#') then None
      else
        var kw := RunEnd(t, sp + 1, Text.PySpace);
        if !KeywordAt(t, kw) then None
        else Some(Split(p, w, sp - 1, kw, 0, 0, 0))
  }

  /** The head an accepted splitting forces, with the filename and body left open. */
  function HeadOf(s: Split): (h: Split)
    ensures SameHead(s, h)
  {
    Split(s.start, s.wordEnd, s.nl, s.kw, 0, 0, 0)
  }

  /** Every splitting whose head lines up at `p` has the head `HeadAt` finds. */
  lemma HeadAtForced(t: string, s: Split)
    requires HeadOk(t, s)
    ensures HeadAt(t, s.start) == Some(HeadOf(s))
  {
    Forced(t, s);
  }

  /** The match of the pattern at position `p`, if the engine finds one there. */
  function MatchAt(t: string, p: nat): (r: Option<Split>)
    ensures r.Some? ==> r.value.start == p
  {
    match HeadAt(t, p)
    case None => None
    case Some(h) => TryName(t, h, RunEnd(t, h.kw + 9, Text.PySpace))
  }

  /**
   * What `MatchAt` finds is a match: it starts at `p`, the pattern accepts
   * it, and its body ends at the first closing fence after its first
   * character.
   */
  lemma MatchAtSound(t: string, p: nat)
    ensures var r := MatchAt(t, p);
      r.Some? ==>
        && r.value.start == p && Accepts(t, r.value)
        && forall k :: r.value.nameEnd + 2 <= k < r.value.bodyEnd ==> !CloseAt(t, k)
  {
    match HeadAt(t, p)
    case None =>
    case Some(h) =>
      MatchAtHead(t, p, h);
      TryNameSound(t, h, RunEnd(t, h.kw + 9, Text.PySpace));
  }

  /** At the start of an accepted splitting, `MatchAt` is the filename search under its head. */
  lemma MatchAtVia(t: string, s: Split)
    requires Accepts(t, s)
    ensures HeadOk(t, HeadOf(s)) && s.kw + 9 <= s.nameStart <= RunEnd(t, s.kw + 9, Text.PySpace)
    ensures MatchAt(t, s.start) == TryName(t, HeadOf(s), RunEnd(t, s.kw + 9, Text.PySpace))
  {
    HeadAtForced(t, s);
    MatchAtHead(t, s.start, HeadOf(s));
    NameStartCovered(t, s);
  }

  /** The filename of an accepted splitting starts within the blanks after `filename:`. */
  lemma NameStartCovered(t: string, s: Split)
    requires TailOk(t, s)
    ensures s.kw + 9 <= s.nameStart <= RunEnd(t, s.kw + 9, Text.PySpace)
  {
    RunEndCovers(t, s.kw + 9, s.nameStart, Text.PySpace);
  }

  /** Where the head is found, `MatchAt` is the filename search under it. */
  lemma MatchAtHead(t: string, p: nat, h: Split)
    requires HeadAt(t, p) == Some(h)
    ensures MatchAt(t, p) == TryName(t, h, RunEnd(t, h.kw + 9, Text.PySpace))
  {
  }

  /**
   * `MatchAt` is the regex engine's answer: no splitting is accepted at `p`
   * when it finds none, and the one it finds precedes every other accepted
   * splitting at `p` in the engine's order.
   */
  lemma MatchAtFirst(t: string, p: nat, s: Split)
    requires s.start == p && Accepts(t, s)
    ensures MatchAt(t, p).Some?
    ensures s == MatchAt(t, p).value || Before(MatchAt(t, p).value, s)
  {
    MatchAtVia(t, s);
    TryNameFirst(t, HeadOf(s), RunEnd(t, s.kw + 9, Text.PySpace), s);
  }

  /**
   * The converse of `MatchAt`'s contract: an accepted splitting whose
   * filename starts at the first non-blank after `filename:` and whose body
   * ends at the first closing fence is the engine's match.
   */
  lemma MatchAtIs(t: string, s: Split)
    requires Accepts(t, s) && s.nameStart == RunEnd(t, s.kw + 9, Text.PySpace)
    requires forall k :: s.nameEnd + 2 <= k < s.bodyEnd ==> !CloseAt(t, k)
    ensures MatchAt(t, s.start) == Some(s)
  {
    var h := HeadOf(s);
    HeadAtForced(t, s);
    RunEndIs(t, s.nameStart, s.nameEnd, NotNewline);
    FindCloseIs(t, s.nameEnd + 2, s.bodyEnd);
    MatchAtHit(t, s.start, h, s.nameEnd, s.bodyEnd);
    assert h.(nameStart := s.nameStart, nameEnd := s.nameEnd, bodyEnd := s.bodyEnd) == s;
  }

  /** Under a head found at `p`, the first filename start that works is the first non-blank. */
  lemma MatchAtHit(t: string, p: nat, h: Split, e: nat, c: nat)
    requires HeadAt(t, p) == Some(h)
    requires var x := RunEnd(t, h.kw + 9, Text.PySpace);
      RunEnd(t, x, NotNewline) == e && x < e < |t| && FindClose(t, e + 2) == Some(c)
    ensures MatchAt(t, p) == Some(h.(nameStart := RunEnd(t, h.kw + 9, Text.PySpace), nameEnd := e, bodyEnd := c))
  {
    MatchAtHead(t, p, h);
    TryNameHit(t, h, RunEnd(t, h.kw + 9, Text.PySpace), e, c);
  }

  /** `TryName` stops at the first filename start whose line is followed by a closing fence. */
  lemma TryNameHit(t: string, h: Split, x: nat, e: nat, c: nat)
    requires h.kw + 9 <= x <= |t| && RunEnd(t, x, NotNewline) == e && x < e < |t| && FindClose(t, e + 2) == Some(c)
    ensures TryName(t, h, x) == Some(h.(nameStart := x, nameEnd := e, bodyEnd := c))
  {
  }

  /**
   * What `findall` needs of the per-position matcher `m` over a text of
   * length `n`: a match reported at `q` starts at `q` and ends after it,
   * inside the text.
   */
  ghost predicate Matcher(n: nat, m: nat -> Option<Split>) {
    forall q: nat :: m(q).Some? ==> m(q).value.start == q < m(q).value.End() <= n
  }

  /** The `findall` scan from position `p`: leftmost match, then resume where it ended. */
  function Scan(n: nat, m: nat -> Option<Split>, p: nat): (ms: seq<Split>)
    requires p <= n && Matcher(n, m)
    ensures forall i :: 0 <= i < |ms| ==> p <= ms[i].start < ms[i].End() <= n
    ensures forall i :: 0 <= i < |ms| ==> m(ms[i].start) == Some(ms[i])
    ensures forall i :: 0 < i < |ms| ==> ms[i - 1].End() <= ms[i].start
    decreases n - p
  {
    if p == n then []
    else match m(p)
      case Some(s) =>
        var rest := Scan(n, m, s.End());
        assert forall i :: 0 < i < |rest| + 1 ==> ([s] + rest)[i] == rest[i - 1];
        [s] + rest
      case None => Scan(n, m, p + 1)
  }

  /** A stretch where the matcher finds nothing is skipped without effect. */
  lemma {:induction false} ScanSkip(n: nat, m: nat -> Option<Split>, p: nat, q: nat)
    requires p <= q <= n && Matcher(n, m)
    requires forall k: nat :: p <= k < q ==> m(k).None?
    ensures Scan(n, m, p) == Scan(n, m, q)
    decreases q - p
  {
    if p < q {
      assert m(p).None?;
      ScanSkip(n, m, p + 1, q);
    }
  }

  /** After a match at `p` the scan resumes where it ended. */
  lemma ScanStep(n: nat, m: nat -> Option<Split>, p: nat)
    requires p < n && Matcher(n, m) && m(p).Some?
    ensures m(p).value.End() <= n
    ensures Scan(n, m, p) == [m(p).value] + Scan(n, m, m(p).value.End())
  {
  }

  /**
   * `ms` are matches laid out from `p` to `n`: each where the matcher finds
   * it, the next no earlier than where the previous ended, and nothing found
   * in the gaps between them.
   */
  ghost predicate Layout(n: nat, m: nat -> Option<Split>, p: nat, ms: seq<Split>)
    decreases |ms|
  {
    if ms == [] then forall k: nat :: p <= k < n ==> m(k).None?
    else
      && p <= ms[0].start
      && (forall k: nat :: p <= k < ms[0].start ==> m(k).None?)
      && m(ms[0].start) == Some(ms[0])
      && Layout(n, m, ms[0].End(), ms[1..])
  }

  /** A match found after a quiet stretch extends a layout. */
  lemma LayoutCons(n: nat, m: nat -> Option<Split>, p: nat, s: Split, ms: seq<Split>)
    requires p <= s.start && m(s.start) == Some(s)
    requires forall k: nat :: p <= k < s.start ==> m(k).None?
    requires Layout(n, m, s.End(), ms)
    ensures Layout(n, m, p, [s] + ms)
  {
    assert ([s] + ms)[0] == s && ([s] + ms)[1..] == ms;
  }

  /** The scan reports exactly the matches of a layout. */
  lemma {:induction false} ScanLayout(n: nat, m: nat -> Option<Split>, p: nat, ms: seq<Split>)
    requires p <= n && Matcher(n, m) && Layout(n, m, p, ms)
    ensures Scan(n, m, p) == ms
    decreases |ms|
  {
    if ms == [] {
      ScanSkip(n, m, p, n);
    } else {
      var s := ms[0];
      ScanSkip(n, m, p, s.start);
      ScanStep(n, m, s.start);
      ScanLayout(n, m, s.End(), ms[1..]);
      assert ms == [s] + ms[1..];
    }
  }

  /** Position `q` lies inside one of the matches `ms`. */
  predicate Covered(ms: seq<Split>, q: nat) {
    exists i :: 0 <= i < |ms| && ms[i].start <= q < ms[i].End()
  }

  /** A position inside one of the later matches is inside one of all of them. */
  lemma CoveredCons(s: Split, rest: seq<Split>, q: nat)
    requires Covered(rest, q)
    ensures Covered([s] + rest, q)
  {
    var i :| 0 <= i < |rest| && rest[i].start <= q < rest[i].End();
    assert ([s] + rest)[i + 1] == rest[i];
  }

  /**
   * The scan misses nothing: every position from `p` on where the matcher
   * succeeds is where a reported match starts or inside one, which the scan
   * skips.
   */
  lemma {:induction false} ScanCovers(n: nat, m: nat -> Option<Split>, p: nat, q: nat)
    requires p <= q < n && Matcher(n, m) && m(q).Some?
    ensures Covered(Scan(n, m, p), q)
    decreases n - p
  {
    if m(p).Some? {
      var s := m(p).value;
      var rest := Scan(n, m, s.End());
      assert Scan(n, m, p) == [s] + rest;
      if q < s.End() {
        assert ([s] + rest)[0] == s;
      } else {
        ScanCovers(n, m, s.End(), q);
        CoveredCons(s, rest, q);
      }
    } else {
      if p == q {
        assert false;
      }
      ScanCovers(n, m, p + 1, q);
    }
  }

  /** Matches each end before the next starts, so no two of them overlap. */
  lemma {:induction false} Disjoint(ms: seq<Split>, i: nat, j: nat)
    requires forall k :: 0 <= k < |ms| ==> ms[k].start < ms[k].End()
    requires forall k :: 0 < k < |ms| ==> ms[k - 1].End() <= ms[k].start
    requires i < j < |ms|
    ensures ms[i].End() <= ms[j].start
    decreases j - i
  {
    if i + 1 < j {
      Disjoint(ms, i + 1, j);
      assert ms[i].End() <= ms[i + 1].start < ms[i + 1].End();
    }
  }

  /** The regex engine as a per-position matcher. */
  function Engine(t: string): (m: nat -> Option<Split>)
    ensures Matcher(|t|, m)
    ensures forall q: nat :: m(q) == MatchAt(t, q)
  {
    assert forall q: nat :: MatchAt(t, q).Some? ==> MatchAt(t, q).value.start == q < MatchAt(t, q).value.End() <= |t| by {
      forall q: nat {
        MatchAtSound(t, q);
      }
    }
    (q: nat) => MatchAt(t, q)
  }

  /** `re.findall` over the whole text. */
  function FindAll(t: string): (ms: seq<Split>)
    ensures forall i :: 0 <= i < |ms| ==> MatchAt(t, ms[i].start) == Some(ms[i]) && Accepts(t, ms[i])
    ensures forall i, j :: 0 <= i < j < |ms| ==> ms[i].End() <= ms[j].start
  {
    var ms := Scan(|t|, Engine(t), 0);
    MatchesAccepted(t, ms);
    AllDisjoint(ms);
    ms
  }

  /** Matches `MatchAt` reports are accepted by the pattern. */
  lemma MatchesAccepted(t: string, ms: seq<Split>)
    requires forall i :: 0 <= i < |ms| ==> MatchAt(t, ms[i].start) == Some(ms[i])
    ensures forall i :: 0 <= i < |ms| ==> Accepts(t, ms[i])
  {
    forall i | 0 <= i < |ms| ensures Accepts(t, ms[i]) {
      MatchAtSound(t, ms[i].start);
    }
  }

  /** Matches that each end before the next starts are pairwise apart. */
  lemma AllDisjoint(ms: seq<Split>)
    requires forall k :: 0 <= k < |ms| ==> ms[k].start < ms[k].End()
    requires forall k :: 0 < k < |ms| ==> ms[k - 1].End() <= ms[k].start
    ensures forall i, j :: 0 <= i < j < |ms| ==> ms[i].End() <= ms[j].start
  {
    forall i, j | 0 <= i < j < |ms| ensures ms[i].End() <= ms[j].start {
      Disjoint(ms, i, j);
    }
  }

  /**
   * Nothing is missed: every position where the pattern could start a match
   * is where a reported match starts or inside one, which `findall` skips.
   */
  lemma FindAllCovers(t: string, q: nat)
    requires q < |t| && MatchAt(t, q).Some?
    ensures Covered(FindAll(t), q)
  {
    ScanCovers(|t|, Engine(t), 0, q);
  }

  /** The two capture groups of a match: the filename and the body. */
  function Groups(t: string, s: Split): (g: (string, string))
    requires Accepts(t, s)
    ensures g == (t[s.nameStart..s.nameEnd], t[s.nameEnd + 1..s.bodyEnd])
    ensures g.0 != [] && g.1 != []
    ensures forall k :: 0 <= k < |g.0| ==> g.0[k] != '\n'
    ensures t[s.nameEnd] == '\n' && CloseAt(t, s.bodyEnd)
  {
    var name := t[s.nameStart..s.nameEnd];
    assert forall k :: 0 <= k < |name| ==> name[k] == t[s.nameStart + k] && NotNewline(t[s.nameStart + k]);
    (name, t[s.nameEnd + 1..s.bodyEnd])
  }

  /**
   * `re.findall(pattern, text)`: the group pairs of the matches, in
   * document order. Each filename is non-empty and within one line, each
   * body non-empty.
   */
  function Extract(t: string): (r: seq<(string, string)>)
    ensures |r| == |FindAll(t)|
    ensures forall i :: 0 <= i < |r| ==> r[i] == Groups(t, FindAll(t)[i])
    ensures forall i :: 0 <= i < |r| ==> r[i].0 != [] && r[i].1 != []
    ensures forall i :: 0 <= i < |r| ==> forall k :: 0 <= k < |r[i].0| ==> r[i].0[k] != '\n'
  {
    var ms := FindAll(t);
    seq(|ms|, i requires 0 <= i < |ms| => Groups(t, ms[i]))
  }

  /** Text without three backticks in a row holds no code block. */
  lemma NoTicksNoFiles(t: string)
    ensures (forall k :: 0 <= k < |t| ==> !TicksAt(t, k)) ==> Extract(t) == []
  {
    var ms := FindAll(t);
    if ms != [] {
      assert MatchAt(t, ms[0].start) == Some(ms[0]);
      assert TicksAt(t, ms[0].start) && ms[0].start < |t|;
    }
  }

  /**
   * Each body ends at the first closing fence after its first character:
   * the fence follows it, and none starts inside it past that character.
   */
  lemma BodyEndsAtFirstFence(t: string, i: nat)
    requires i < |FindAll(t)|
    ensures var s := FindAll(t)[i];
      && CloseAt(t, s.bodyEnd)
      && forall k :: s.nameEnd + 2 <= k < s.bodyEnd ==> !CloseAt(t, k)
  {
    MatchAtSound(t, FindAll(t)[i].start);
  }
}

=== FILE: fence_round_trip.dfy ===
/**
 * The code-block format the system prompt asks the model to use, and the
 * round trip through the detector: a block written in that format, among
 * prose without backticks, comes back as its filename and body.
 */
module FenceRoundTrip {
  import opened Maybe
  import opened Fence
  import Agent
  import Text

  /** A code block as the system prompt lays it out. */
  datatype Block = Block(lang: string, name: string, body: string)

  const Header: string := "\n# filename: "
  const Footer: string := "\n```"

  function Render(b: Block): (r: string)
    ensures |r| == |b.lang| + |b.name| + |b.body| + 21
  {
    "```" + b.lang + Header + b.name + "\n" + b.body + Footer
  }

  /**
   * The blocks the detector reads back unchanged: a language tag of word
   * characters, a one-line filename that does not start with whitespace, a
   * non-empty body, and no closing fence inside the body after its first
   * character.
   */
  predicate WellFormed(b: Block) {
    && (forall i :: 0 <= i < |b.lang| ==> IsWord(b.lang[i]))
    && b.name != [] && !Text.PySpace(b.name[0])
    && (forall i :: 0 <= i < |b.name| ==> b.name[i] != '\n')
    && b.body != []
    && (forall k :: 1 <= k < |b.body| ==> !CloseAt(b.body + Footer, k))
  }

  /** Where the pattern's pieces meet in a block rendered at position `a`. */
  function SplitOf(a: nat, b: Block): (s: Split)
    ensures s.start == a && s.End() == a + |Render(b)|
  {
    var l := |b.lang|;
    var n := |b.name|;
    Split(a, a + 3 + l, a + 3 + l, a + 6 + l, a + 16 + l, a + 16 + l + n, a + 17 + l + n + |b.body|)
  }

  /** A slice of `r` found in `t` at `a` is found at the shifted place. */
  lemma Shift(t: string, a: nat, r: string, i: nat, j: nat)
    requires a + |r| <= |t| && t[a..a + |r|] == r && i <= j <= |r|
    ensures t[a + i..a + j] == r[i..j]
  {
    assert forall k :: 0 <= k < j - i ==> t[a + i..a + j][k] == t[a..a + |r|][i + k] == r[i..j][k];
  }

  /** A slice whose characters are those of `u` is `u`. */
  lemma SliceIs(r: string, i: nat, u: string)
    requires i + |u| <= |r|
    requires forall k :: 0 <= k < |u| ==> r[i + k] == u[k]
    ensures r[i..i + |u|] == u
  {
    var v := r[i..i + |u|];
    assert forall k :: 0 <= k < |u| ==> v[k] == r[i + k];
  }

  /** The pieces of a rendered block, each in its place. */
  lemma RenderPieces(b: Block)
    ensures var r, l, n := Render(b), |b.lang|, |b.name|;
      && r[..3] == "```"
      && r[3..3 + l] == b.lang
      && r[3 + l..16 + l] == Header
      && r[16 + l..16 + l + n] == b.name
      && r[16 + l + n] == '\n'
      && r[17 + l + n..] == b.body + Footer
      && r[17 + l + n..17 + l + n + |b.body|] == b.body
      && r[17 + l + n + |b.body|..] == Footer
  {
    var r, l, n := Render(b), |b.lang|, |b.name|;
    var p1 := "```" + b.lang;
    var p2 := p1 + Header;
    var p3 := p2 + b.name;
    var p4 := p3 + "\n";
    var tail := b.body + Footer;
    assert r == p4 + tail;
    SliceIs(r, 0, "```");
    SliceIs(r, 3, b.lang);
    SliceIs(r, 3 + l, Header);
    SliceIs(r, 16 + l, b.name);
    SliceIs(r, 17 + l + n, tail);
    SliceIs(r, 17 + l + n, b.body);
    SliceIs(r, 17 + l + n + |b.body|, Footer);
  }

  /** The pieces of a block rendered at `a`, each in its place. */
  lemma Pieces(t: string, a: nat, b: Block)
    requires a + |Render(b)| <= |t| && t[a..a + |Render(b)|] == Render(b)
    ensures var l, n := |b.lang|, |b.name|;
      && t[a..a + 3] == "```"
      && t[a + 3..a + 3 + l] == b.lang
      && t[a + 3 + l..a + 16 + l] == Header
      && t[a + 16 + l..a + 16 + l + n] == b.name
      && t[a + 16 + l + n] == '\n'
      && t[a + 17 + l + n..a + 21 + l + n + |b.body|] == b.body + Footer
      && t[a + 17 + l + n..a + 17 + l + n + |b.body|] == b.body
      && t[a + 17 + l + n + |b.body|..a + 21 + l + n + |b.body|] == Footer
  {
    var r, l, n := Render(b), |b.lang|, |b.name|;
    RenderPieces(b);
    Shift(t, a, r, 0, 3);
    Shift(t, a, r, 3, 3 + l);
    Shift(t, a, r, 3 + l, 16 + l);
    Shift(t, a, r, 16 + l, 16 + l + n);
    Shift(t, a, r, 17 + l + n, |r|);
    Shift(t, a, r, 17 + l + n, 17 + l + n + |b.body|);
    Shift(t, a, r, 17 + l + n + |b.body|, |r|);
    assert t[a + 16 + l + n] == t[a..a + |r|][16 + l + n];
  }

  /** The three backticks opening a block. */
  lemma TicksSlice(t: string, p: nat)
    requires p + 3 <= |t| && t[p..p + 3] == "```"
    ensures TicksAt(t, p)
  {
    var s := t[p..p + 3];
    assert t[p] == s[0] && t[p + 1] == s[1] && t[p + 2] == s[2];
  }

  /** The header line between the language tag and the filename. */
  lemma HeaderSlice(t: string, p: nat)
    requires p + 13 <= |t| && t[p..p + 13] == Header
    ensures t[p] == '\n' && t[p + 1] == '#' && Text.PySpace(t[p + 2])
    ensures KeywordAt(t, p + 3) && Text.PySpace(t[p + 12])
  {
    var s := t[p..p + 13];
    assert t[p] == s[0] && t[p + 1] == s[1] && t[p + 2] == s[2] && t[p + 12] == s[12];
    Shift(t, p, Header, 3, 12);
    assert Header[3..12] == "filename:";
  }

  /** The closing fence ending a block. */
  lemma FooterSlice(t: string, p: nat)
    requires p + 4 <= |t| && t[p..p + 4] == Footer
    ensures CloseAt(t, p)
  {
    var s := t[p..p + 4];
    assert t[p] == s[0] && t[p + 1] == s[1] && t[p + 2] == s[2] && t[p + 3] == s[3];
  }

  /** Every character of a slice equal to `u` is in a class all of `u` is in. */
  lemma SliceAll(t: string, i: nat, u: string, p: char -> bool)
    requires i + |u| <= |t| && t[i..i + |u|] == u
    requires forall k :: 0 <= k < |u| ==> p(u[k])
    ensures All(t, i, i + |u|, p)
  {
    forall k | i <= k < i + |u| ensures p(t[k]) {
      assert t[k] == t[i..i + |u|][k - i] == u[k - i];
    }
  }

  /** The pattern up to `filename:` lines up with a well-formed rendered block. */
  lemma BlockHead(t: string, a: nat, b: Block)
    requires WellFormed(b)
    requires a + |Render(b)| <= |t| && t[a..a + |Render(b)|] == Render(b)
    ensures HeadOk(t, SplitOf(a, b))
  {
    var s, l := SplitOf(a, b), |b.lang|;
    Pieces(t, a, b);
    TicksSlice(t, a);
    SliceAll(t, a + 3, b.lang, IsWord);
    HeaderSlice(t, s.nl);
  }

  /** The filename line and the closing fence line up with a well-formed rendered block. */
  lemma BlockTail(t: string, a: nat, b: Block)
    requires WellFormed(b)
    requires a + |Render(b)| <= |t| && t[a..a + |Render(b)|] == Render(b)
    ensures TailOk(t, SplitOf(a, b))
    ensures !Text.PySpace(t[SplitOf(a, b).nameStart])
  {
    var s, l, n := SplitOf(a, b), |b.lang|, |b.name|;
    Pieces(t, a, b);
    HeaderSlice(t, s.nl);
    SliceAll(t, s.nameStart, b.name, NotNewline);
    assert t[s.nameStart] == t[s.nameStart..s.nameEnd][0] == b.name[0];
    FooterSlice(t, s.bodyEnd);
  }

  /** The pattern lines up with a well-formed rendered block as `SplitOf` says. */
  lemma BlockAccepted(t: string, a: nat, b: Block)
    requires WellFormed(b)
    requires a + |Render(b)| <= |t| && t[a..a + |Render(b)|] == Render(b)
    ensures Accepts(t, SplitOf(a, b))
    ensures !Text.PySpace(t[SplitOf(a, b).nameStart])
  {
    BlockHead(t, a, b);
    BlockTail(t, a, b);
  }

  /** The body of a block rendered at `a` holds no closing fence past its first character. */
  lemma NoEarlyClose(t: string, a: nat, b: Block)
    requires WellFormed(b)
    requires a + |Render(b)| <= |t| && t[a..a + |Render(b)|] == Render(b)
    ensures forall k :: SplitOf(a, b).nameEnd + 2 <= k < SplitOf(a, b).bodyEnd ==> !CloseAt(t, k)
  {
    var s := SplitOf(a, b);
    var u := b.body + Footer;
    Pieces(t, a, b);
    assert t[s.nameEnd + 1..s.bodyEnd + 4] == u;
    forall k | s.nameEnd + 2 <= k < s.bodyEnd ensures !CloseAt(t, k) {
      var j := k - s.nameEnd - 1;
      assert !CloseAt(u, j);
      assert t[k] == u[j] && t[k + 1] == u[j + 1] && t[k + 2] == u[j + 2] && t[k + 3] == u[j + 3];
    }
  }

  /** At the start of a well-formed rendered block the engine matches the whole block. */
  lemma BlockMatch(t: string, a: nat, b: Block)
    requires WellFormed(b)
    requires a + |Render(b)| <= |t| && t[a..a + |Render(b)|] == Render(b)
    ensures MatchAt(t, a) == Some(SplitOf(a, b))
  {
    var s := SplitOf(a, b);
    BlockAccepted(t, a, b);
    NoEarlyClose(t, a, b);
    RunEndIs(t, s.kw + 9, s.nameStart, Text.PySpace);
    MatchAtIs(t, s);
  }

  /** The groups of a well-formed rendered block are its filename and body. */
  lemma BlockGroups(t: string, a: nat, b: Block)
    requires WellFormed(b)
    requires a + |Render(b)| <= |t| && t[a..a + |Render(b)|] == Render(b)
    ensures Accepts(t, SplitOf(a, b)) && Groups(t, SplitOf(a, b)) == (b.name, b.body)
  {
    var s := SplitOf(a, b);
    BlockAccepted(t, a, b);
    Pieces(t, a, b);
  }

  /** Prose without backticks, which the detector passes over. */
  predicate Plain(g: string) {
    forall i :: 0 <= i < |g| ==> g[i] != '`'
  }

  /** A reply: prose `gaps[0]`, block 0, prose `gaps[1]`, ..., block n-1, prose `gaps[n]`. */
  function Join(gaps: seq<string>, blocks: seq<Block>): (r: string)
    requires |gaps| == |blocks| + 1
    ensures blocks == [] ==> r == gaps[0]
    decreases |blocks|
  {
    if blocks == [] then gaps[0]
    else gaps[0] + Render(blocks[0]) + Join(gaps[1..], blocks[1..])
  }

  /** The filename and body of each block, in order. */
  function Pairs(blocks: seq<Block>): (r: seq<(string, string)>)
    ensures |r| == |blocks|
  {
    seq(|blocks|, i requires 0 <= i < |blocks| => (blocks[i].name, blocks[i].body))
  }

  /**
   * What the round trip needs of a per-position matcher over `t`: nothing
   * found where there is no backtick, and a well-formed block found whole
   * wherever it is rendered.
   */
  ghost predicate Finds(t: string, m: nat -> Option<Split>) {
    && (forall k: nat :: k < |t| && t[k] != '`' ==> m(k).None?)
    && (forall a: nat, b: Block ::
          WellFormed(b) && a + |Render(b)| <= |t| && t[a..a + |Render(b)|] == Render(b) ==> m(a) == Some(SplitOf(a, b)))
  }

  /** The regex engine is such a matcher. */
  lemma EngineFinds(t: string)
    ensures Finds(t, Engine(t))
  {
    forall a: nat, b: Block | WellFormed(b) && a + |Render(b)| <= |t| && t[a..a + |Render(b)|] == Render(b)
      ensures Engine(t)(a) == Some(SplitOf(a, b))
    {
      BlockMatch(t, a, b);
    }
  }

  /** Where the text holds only prose, such a matcher finds nothing. */
  lemma QuietGap(t: string, m: nat -> Option<Split>, p: nat, q: nat)
    requires Finds(t, m) && p <= q <= |t| && Plain(t[p..q])
    ensures forall k: nat :: p <= k < q ==> m(k).None?
  {
    forall k: nat | p <= k < q ensures m(k).None? {
      assert t[k] == t[p..q][k - p];
    }
  }

  /** Property `h` holds of every well-formed block rendered in `t`, split where `SplitOf` says. */
  ghost predicate AtBlocks(t: string, h: (Split, Block) -> bool) {
    forall a: nat, b: Block ::
      WellFormed(b) && a + |Render(b)| <= |t| && t[a..a + |Render(b)|] == Render(b) ==> h(SplitOf(a, b), b)
  }

  /** A split is accepted and its groups are the block's filename and body. */
  function Recovered(t: string): (Split, Block) -> bool {
    (s: Split, b: Block) => Accepts(t, s) && Groups(t, s) == (b.name, b.body)
  }

  /** Every gap is prose and every block well-formed. */
  predicate Clean(gaps: seq<string>, blocks: seq<Block>) {
    && (forall i :: 0 <= i < |gaps| ==> Plain(gaps[i]))
    && (forall i :: 0 <= i < |blocks| ==> WellFormed(blocks[i]))
  }

  /** Where the first gap, the first block and the rest of a reply embedded at `off` lie. */
  lemma JoinParts(t: string, off: nat, gaps: seq<string>, blocks: seq<Block>)
    requires |gaps| == |blocks| + 1 && blocks != []
    requires off <= |t| && t[off..] == Join(gaps, blocks)
    ensures var a := off + |gaps[0]|;
      && a + |Render(blocks[0])| <= |t|
      && t[off..a] == gaps[0]
      && t[a..a + |Render(blocks[0])|] == Render(blocks[0])
      && t[a + |Render(blocks[0])|..] == Join(gaps[1..], blocks[1..])
  {
    var g, r, rest := gaps[0], Render(blocks[0]), Join(gaps[1..], blocks[1..]);
    var a := off + |g|;
    assert t[off..] == g + r + rest;
    assert t[off..a] == t[off..][..|g|];
    assert t[a..a + |r|] == t[off..][|g|..|g| + |r|];
    assert t[a + |r|..] == t[off..][|g| + |r|..];
  }

  /** Where the pattern's pieces meet in each block of a reply embedded at `off`. */
  function Splits(off: nat, gaps: seq<string>, blocks: seq<Block>): (ms: seq<Split>)
    requires |gaps| == |blocks| + 1
    ensures |ms| == |blocks|
    decreases |blocks|
  {
    if blocks == [] then []
    else
      var a := off + |gaps[0]|;
      [SplitOf(a, blocks[0])] + Splits(a + |Render(blocks[0])|, gaps[1..], blocks[1..])
  }

  /** The rest of a clean reply is clean. */
  lemma CleanRest(gaps: seq<string>, blocks: seq<Block>)
    requires |gaps| == |blocks| + 1 && blocks != [] && Clean(gaps, blocks)
    ensures Clean(gaps[1..], blocks[1..]) && Plain(gaps[0]) && WellFormed(blocks[0])
  {
    assert forall i :: 0 <= i < |blocks| - 1 ==> blocks[1..][i] == blocks[i + 1];
    assert forall i :: 0 <= i < |gaps| - 1 ==> gaps[1..][i] == gaps[i + 1];
  }

  /**
   * The text from `off` on holds prose without backticks and well-formed
   * blocks, with the lengths of `gaps` and the contents of `blocks`.
   */
  predicate Placed(t: string, off: nat, gaps: seq<string>, blocks: seq<Block>)
    requires |gaps| == |blocks| + 1
    decreases |blocks|
  {
    && off + |gaps[0]| <= |t|
    && Plain(t[off..off + |gaps[0]|])
    && if blocks == [] then off + |gaps[0]| == |t|
      else
        var a := off + |gaps[0]|;
        var e := a + |Render(blocks[0])|;
        && e <= |t|
        && WellFormed(blocks[0])
        && t[a..e] == Render(blocks[0])
        && Placed(t, e, gaps[1..], blocks[1..])
  }

  /** A clean reply embedded at `off` and running to the end of `t` is placed there. */
  lemma {:induction false} JoinPlaced(t: string, off: nat, gaps: seq<string>, blocks: seq<Block>)
    requires |gaps| == |blocks| + 1 && Clean(gaps, blocks)
    requires off <= |t| && t[off..] == Join(gaps, blocks)
    ensures Placed(t, off, gaps, blocks)
    decreases |blocks|
  {
    if blocks == [] {
      assert t[off..off + |gaps[0]|] == gaps[0];
      assert Plain(gaps[0]);
    } else {
      CleanRest(gaps, blocks);
      JoinParts(t, off, gaps, blocks);
      JoinPlaced(t, off + |gaps[0]| + |Render(blocks[0])|, gaps[1..], blocks[1..]);
    }
  }

  /** `Splits` places the first block, then the rest. */
  lemma SplitsCons(off: nat, gaps: seq<string>, blocks: seq<Block>)
    requires |gaps| == |blocks| + 1 && blocks != []
    ensures var a := off + |gaps[0]|;
      Splits(off, gaps, blocks) == [SplitOf(a, blocks[0])] + Splits(a + |Render(blocks[0])|, gaps[1..], blocks[1..])
  {
  }

  /**
   * In the blocks placed from `off` to the end of `t` such a matcher finds
   * the blocks where `Splits` places them and nothing in the prose between
   * them.
   */
  lemma {:induction false} PlacedLayout(t: string, m: nat -> Option<Split>, off: nat, gaps: seq<string>, blocks: seq<Block>)
    requires Finds(t, m)
    requires |gaps| == |blocks| + 1 && Placed(t, off, gaps, blocks)
    ensures Layout(|t|, m, off, Splits(off, gaps, blocks))
    decreases |blocks|
  {
    var a := off + |gaps[0]|;
    QuietGap(t, m, off, a);
    if blocks != [] {
      var b := blocks[0];
      var e := a + |Render(b)|;
      PlacedFirst(t, off, gaps, blocks);
      PlacedLayout(t, m, e, gaps[1..], blocks[1..]);
      LayoutCons(|t|, m, off, SplitOf(a, b), Splits(e, gaps[1..], blocks[1..]));
      SplitsCons(off, gaps, blocks);
    }
  }

  /** The first block of a placed reply, and the placed rest after it. */
  lemma PlacedFirst(t: string, off: nat, gaps: seq<string>, blocks: seq<Block>)
    requires |gaps| == |blocks| + 1 && blocks != [] && Placed(t, off, gaps, blocks)
    ensures var a := off + |gaps[0]|;
      && a + |Render(blocks[0])| <= |t|
      && WellFormed(blocks[0])
      && t[a..a + |Render(blocks[0])|] == Render(blocks[0])
      && Placed(t, a + |Render(blocks[0])|, gaps[1..], blocks[1..])
  {
  }

  /** A property of every rendered block holds of each block `Splits` places, split as it places it. */
  lemma {:induction false} PlacedHolds(t: string, h: (Split, Block) -> bool, off: nat, gaps: seq<string>, blocks: seq<Block>)
    requires AtBlocks(t, h)
    requires |gaps| == |blocks| + 1 && Placed(t, off, gaps, blocks)
    ensures forall i :: 0 <= i < |blocks| ==> h(Splits(off, gaps, blocks)[i], blocks[i])
    decreases |blocks|
  {
    if blocks != [] {
      var a := off + |gaps[0]|;
      var e := a + |Render(blocks[0])|;
      var ms, rest := Splits(off, gaps, blocks), Splits(e, gaps[1..], blocks[1..]);
      PlacedFirst(t, off, gaps, blocks);
      PlacedHolds(t, h, e, gaps[1..], blocks[1..]);
      SplitsCons(off, gaps, blocks);
      forall i | 0 <= i < |blocks| ensures h(ms[i], blocks[i]) {
        if i > 0 {
          assert ms[i] == rest[i - 1] && blocks[i] == blocks[1..][i - 1];
        }
      }
    }
  }

  /** Every well-formed rendered block is accepted with its filename and body as groups. */
  lemma RecoveredAtBlocks(t: string)
    ensures AtBlocks(t, Recovered(t))
  {
    forall a: nat, b: Block | WellFormed(b) && a + |Render(b)| <= |t| && t[a..a + |Render(b)|] == Render(b)
      ensures Recovered(t)(SplitOf(a, b), b)
    {
      BlockGroups(t, a, b);
    }
  }

  /** The detector's pairs are the blocks' when its matches recover them. */
  lemma ExtractRecovers(t: string, blocks: seq<Block>)
    requires |FindAll(t)| == |blocks|
    requires forall i :: 0 <= i < |blocks| ==> Recovered(t)(FindAll(t)[i], blocks[i])
    ensures Extract(t) == Pairs(blocks)
  {
    var r, p := Extract(t), Pairs(blocks);
    forall i | 0 <= i < |r| ensures r[i] == p[i] {
    }
  }

  /** In a text that is a placed reply, the detector finds exactly its blocks. */
  lemma PlacedExtract(t: string, gaps: seq<string>, blocks: seq<Block>)
    requires |gaps| == |blocks| + 1 && Placed(t, 0, gaps, blocks)
    ensures Extract(t) == Pairs(blocks)
  {
    var ms := Splits(0, gaps, blocks);
    EngineFinds(t);
    PlacedLayout(t, Engine(t), 0, gaps, blocks);
    ScanLayout(|t|, Engine(t), 0, ms);
    assert FindAll(t) == ms;
    RecoveredAtBlocks(t);
    PlacedHolds(t, Recovered(t), 0, gaps, blocks);
    ExtractRecovers(t, blocks);
  }

  /**
   * The round trip: the detector recovers from a reply exactly the
   * filenames and bodies of the well-formed blocks it contains, in order.
   */
  lemma ExtractJoin(gaps: seq<string>, blocks: seq<Block>)
    requires |gaps| == |blocks| + 1 && Clean(gaps, blocks)
    ensures Extract(Join(gaps, blocks)) == Pairs(blocks)
  {
    var t := Join(gaps, blocks);
    assert t[0..] == t;
    JoinPlaced(t, 0, gaps, blocks);
    PlacedExtract(t, gaps, blocks);
  }

  lemma PlainConcat(x: string, y: string)
    requires Plain(x) && Plain(y)
    ensures Plain(x + y)
  {
    assert forall i :: 0 <= i < |x + y| ==> (x + y)[i] == if i < |x| then x[i] else y[i - |x|];
  }

  /** The prose around the system prompt's example holds no backticks. */
  lemma PromptProsePlain()
    ensures Plain(Agent.PromptIntro) && Plain(Agent.PromptOutro)
  {
    var acc := "You are a highly skilled AI App ";
    PlainConcat(acc, "Builder and Agent. Your goal is to ");
    acc := acc + "Builder and Agent. Your goal is to ";
    PlainConcat(acc, "help the user build applications, ");
    acc := acc + "help the user build applications, ";
    PlainConcat(acc, "write code, and solve complex ");
    acc := acc + "write code, and solve complex ";
    PlainConcat(acc, "problems. \n\nYou reason ");
    acc := acc + "problems. \n\nYou reason ";
    PlainConcat(acc, "step-by-step. When you generate ");
    acc := acc + "step-by-step. When you generate ";
    PlainConcat(acc, "code that should be saved to a ");
    acc := acc + "code that should be saved to a ";
    PlainConcat(acc, "file, use a code block with a ");
    acc := acc + "file, use a code block with a ";
    PlainConcat(acc, "filename comment on the first ");
    acc := acc + "filename comment on the first ";
    PlainConcat(acc, "line, like this:\n");
    acc := acc + "line, like this:\n";
    assert acc == Agent.PromptIntro;
    PlainConcat("\nThe system will detect these and ", "provide an easy way to save them.");
  }

  /** The example in the system prompt: a Python file `hello.py`. */
  const HelloBlock: Block := Block("python", "hello.py", "print(\"Hello World\")")

  lemma HelloWellFormed()
    ensures WellFormed(HelloBlock) && Render(HelloBlock) == Agent.PromptExample
  {
    var u := HelloBlock.body + Footer;
    forall k | 1 <= k < |HelloBlock.body| ensures !CloseAt(u, k) {
      assert u[k] == HelloBlock.body[k] != '\n';
    }
  }

  /**
   * Asking the detector about the system prompt itself yields its example:
   * one file, `hello.py`, whose body is the single `print` line.
   */
  lemma ExtractSystemPrompt()
    ensures Extract(Agent.SystemPrompt) == [("hello.py", "print(\"Hello World\")")]
  {
    var gaps, blocks := [Agent.PromptIntro, Agent.PromptOutro], [HelloBlock];
    PromptProsePlain();
    HelloWellFormed();
    assert Join(gaps, blocks) == Agent.SystemPrompt by {
      assert gaps[1..] == [Agent.PromptOutro] && blocks[1..] == [];
    }
    ExtractJoin(gaps, blocks);
  }
}

=== FILE: maybe.dfy ===
/** Optional values and fallible results shared by every module of the model. */
module Maybe {

  /** A value that may be absent: JavaScript's `undefined`/`null`, Python's `None`. */
  datatype Option<+T> = None | Some(value: T)

  /** The outcome of a call that may raise: a value, or the error it raised. */
  datatype Result<+T, +E> = Success(value: T) | Failure(error: E)
}

=== FILE: project_flow.dfy ===
/**
 * The ProjectFlow kanban board as a state machine: a list of projects, each
 * with its tasks, and the id of the project on screen. Every event handler of
 * the page is a pure transition on this state; rendering, modals, storage and
 * drag visuals are not part of it.
 */
module ProjectFlow {
  import opened Maybe
  import opened Seqs
  import Text

  /** Ids are the strings the page generates at random; fresh ones come in as inputs. */
  type Id = string

  /** The three kanban columns, keyed `todo`, `inprogress` and `done` on the page. */
  datatype Status = Todo | InProgress | Done

  datatype Task = Task(id: Id, title: string, desc: string, status: Status)

  datatype Project = Project(id: Id, name: string, tasks: seq<Task>)

  /** `projects` and `activeProjectId`; `None` is the page's `null`. */
  datatype Board = Board(projects: seq<Project>, active: Option<Id>)

  /** The ids of all projects in the list. */
  function Ids(ps: seq<Project>): set<Id> {
    set p | p in ps :: p.id
  }

  /** The state invariant: the active id is absent or names a project in the list. */
  predicate Valid(b: Board) {
    b.active.Some? ==> b.active.value in Ids(b.projects)
  }

  /**
   * JavaScript truthiness of `activeProjectId`: `null` and the empty string are
   * both falsy, so a project whose id happens to be "" never counts as active.
   */
  predicate HasActive(b: Board) {
    b.active.Some? && b.active.value != ""
  }

  function IsProject(id: Id): Project -> bool {
    (p: Project) => p.id == id
  }

  function OtherProject(id: Id): Project -> bool {
    (p: Project) => p.id != id
  }

  function IsTask(id: Id): Task -> bool {
    (t: Task) => t.id == id
  }

  function OtherTask(id: Id): Task -> bool {
    (t: Task) => t.id != id
  }

  /** `projects.find(p => p.id === id)`, as the position of the project it returns. */
  function ProjectIndex(ps: seq<Project>, id: Id): Option<nat> {
    Find(ps, IsProject(id))
  }

  /** The position of the active project, when there is an active id and it is found. */
  function ActiveIndex(b: Board): Option<nat> {
    if HasActive(b) then ProjectIndex(b.projects, b.active.value) else None
  }

  lemma ValidFindsActive(b: Board)
    requires Valid(b) && HasActive(b)
    ensures ActiveIndex(b).Some?
  {
    var id := b.active.value;
    var p :| p in b.projects && p.id == id;
    var k :| 0 <= k < |b.projects| && b.projects[k] == p;
    assert IsProject(id)(b.projects[k]);
  }

  /** The board after the page is loaded with `ps`: the first project, if any, is selected. */
  function Init(ps: seq<Project>): (r: Board)
    ensures r.projects == ps
    ensures Valid(r)
    ensures r.active.None? <==> ps == []
    ensures ps != [] ==> r.active == Some(ps[0].id)
  {
    if |ps| > 0 then SelectProject(Board(ps, None), ps[0].id) else Board(ps, None)
  }

  /**
   * `selectProject(id)`: makes `id` active whether or not a project has it; the
   * page only ever passes ids taken from the list.
   */
  function SelectProject(b: Board, id: Id): (r: Board)
    ensures r.projects == b.projects && r.active == Some(id)
    ensures id in Ids(b.projects) ==> Valid(r)
  {
    b.(active := Some(id))
  }

  /**
   * `handleAddProject`: a name that trims to nothing is ignored; otherwise a
   * project with the trimmed name and no tasks is appended under `freshId`
   * and selected.
   */
  function AddProject(b: Board, nameInput: string, freshId: Id): (r: Board)
    ensures Text.JsTrim(nameInput) == [] ==> r == b
    ensures Text.JsTrim(nameInput) != [] ==>
      && |r.projects| == |b.projects| + 1
      && r.projects[..|b.projects|] == b.projects
      && r.projects[|b.projects|] == Project(freshId, Text.JsTrim(nameInput), [])
      && r.active == Some(freshId)
    ensures Valid(b) ==> Valid(r)
  {
    var name := Text.JsTrim(nameInput);
    if name == [] then b
    else
      var projects := b.projects + [Project(freshId, name, [])];
      assert projects[|b.projects|].id == freshId;
      SelectProject(b.(projects := projects), freshId)
  }

  /**
   * `handleDeleteProject`: without an active id, or when the user does not
   * confirm, nothing happens; otherwise every project carrying the active id is
   * removed and the first remaining project, if any, becomes active.
   */
  function DeleteProject(b: Board, confirmed: bool): (r: Board)
    ensures !HasActive(b) || !confirmed ==> r == b
    ensures HasActive(b) && confirmed ==>
      && r.projects == Filter(b.projects, OtherProject(b.active.value))
      && b.active.value !in Ids(r.projects)
      && (r.projects == [] ==> r.active.None?)
      && (r.projects != [] ==> r.active == Some(r.projects[0].id))
    ensures Valid(b) ==> Valid(r)
  {
    if !HasActive(b) || !confirmed then b
    else
      var rest := Filter(b.projects, OtherProject(b.active.value));
      assert forall p :: p in rest ==> p.id != b.active.value by {
        forall p | p in rest ensures p.id != b.active.value {
          var k :| 0 <= k < |rest| && rest[k] == p;
        }
      }
      if |rest| > 0 then SelectProject(Board(rest, None), rest[0].id) else Board(rest, None)
  }

  /** Replaces the tasks of the project at position `i`, leaving every other project alone. */
  function WithTasks(b: Board, i: nat, tasks: seq<Task>): (r: Board)
    requires i < |b.projects|
    ensures |r.projects| == |b.projects| && r.active == b.active
    ensures r.projects[i] == b.projects[i].(tasks := tasks)
    ensures forall j :: 0 <= j < |b.projects| && j != i ==> r.projects[j] == b.projects[j]
    ensures Ids(r.projects) == Ids(b.projects)
  {
    var r := b.(projects := b.projects[i := b.projects[i].(tasks := tasks)]);
    assert forall p :: p in b.projects ==> p.id in Ids(r.projects) by {
      forall p | p in b.projects ensures p.id in Ids(r.projects) {
        var k :| 0 <= k < |b.projects| && b.projects[k] == p;
        assert r.projects[k].id == p.id;
      }
    }
    r
  }

  /**
   * `handleAddTask`: needs an active id and a title that does not trim to
   * nothing; then a `Todo` task with the trimmed title and description is
   * appended to the first project carrying the active id. Should no project
   * carry it, the page throws before changing anything.
   */
  function AddTask(b: Board, titleInput: string, descInput: string, freshId: Id): (r: Board)
    ensures !HasActive(b) || Text.JsTrim(titleInput) == [] || ActiveIndex(b).None? ==> r == b
    ensures HasActive(b) && Text.JsTrim(titleInput) != [] && ActiveIndex(b).Some? ==>
      var i := ActiveIndex(b).value;
      && r.active == b.active
      && |r.projects| == |b.projects|
      && r.projects[i]
         == b.projects[i].(tasks := b.projects[i].tasks + [Task(freshId, Text.JsTrim(titleInput), Text.JsTrim(descInput), Todo)])
      && (forall j :: 0 <= j < |b.projects| && j != i ==> r.projects[j] == b.projects[j])
    ensures Valid(b) ==> Valid(r)
  {
    var title := Text.JsTrim(titleInput);
    if !HasActive(b) || title == [] then b
    else match ActiveIndex(b)
      case None => b
      case Some(i) =>
        WithTasks(b, i, b.projects[i].tasks + [Task(freshId, title, Text.JsTrim(descInput), Todo)])
  }

  /**
   * `window.deleteTask`: with an active project, every task carrying `taskId`
   * is removed from it; the other tasks keep their order.
   */
  function DeleteTask(b: Board, taskId: Id): (r: Board)
    ensures ActiveIndex(b).None? ==> r == b
    ensures ActiveIndex(b).Some? ==>
      var i := ActiveIndex(b).value;
      && r.active == b.active
      && |r.projects| == |b.projects|
      && r.projects[i] == b.projects[i].(tasks := Filter(b.projects[i].tasks, OtherTask(taskId)))
      && (forall t :: t in r.projects[i].tasks ==> t.id != taskId)
      && (forall j :: 0 <= j < |b.projects| && j != i ==> r.projects[j] == b.projects[j])
    ensures Valid(b) ==> Valid(r)
  {
    match ActiveIndex(b)
    case None => b
    case Some(i) =>
      var kept := Filter(b.projects[i].tasks, OtherTask(taskId));
      assert forall t :: t in kept ==> t.id != taskId by {
        forall t | t in kept ensures t.id != taskId {
          var k :| 0 <= k < |kept| && kept[k] == t;
        }
      }
      WithTasks(b, i, kept)
  }

  /**
   * The `drop` handler: `dragged` is the id carried by the dragged card, if a
   * card is being dragged. Only the first task of the active project with that
   * id changes, and only when its status differs from the column's.
   */
  function Drop(b: Board, dragged: Option<Id>, column: Status): (r: Board)
    ensures dragged.None? || ActiveIndex(b).None? ==> r == b
    ensures dragged.Some? && ActiveIndex(b).Some? ==>
      var i := ActiveIndex(b).value;
      var ts := b.projects[i].tasks;
      match Find(ts, IsTask(dragged.value))
      case None => r == b
      case Some(k) =>
        && r.active == b.active
        && |r.projects| == |b.projects|
        && r.projects[i] == b.projects[i].(tasks := ts[k := ts[k].(status := column)])
        && (forall j :: 0 <= j < |b.projects| && j != i ==> r.projects[j] == b.projects[j])
    ensures Valid(b) ==> Valid(r)
  {
    if dragged.None? then b
    else match ActiveIndex(b)
      case None => b
      case Some(i) =>
        var ts := b.projects[i].tasks;
        match Find(ts, IsTask(dragged.value))
        case None => b
        case Some(k) =>
          if ts[k].status == column then b
          else WithTasks(b, i, ts[k := ts[k].(status := column)])
  }

  /** Replacing a project's tasks keeps every project id, so the active project stays where it was. */
  lemma WithTasksKeepsActive(b: Board, i: nat, tasks: seq<Task>)
    requires i < |b.projects|
    ensures ActiveIndex(WithTasks(b, i, tasks)) == ActiveIndex(b)
  {
    var r := WithTasks(b, i, tasks);
    assert forall j :: 0 <= j < |r.projects| ==> r.projects[j].id == b.projects[j].id;
    if HasActive(b) {
      FindSameHits(b.projects, r.projects, IsProject(b.active.value));
    }
  }

  /** `find` gives the same answer on two lists that agree, position by position, on the predicate. */
  lemma FindSameHits<T>(s: seq<T>, s': seq<T>, hit: T -> bool)
    requires |s| == |s'|
    requires forall j :: 0 <= j < |s| ==> hit(s[j]) == hit(s'[j])
    ensures Find(s, hit) == Find(s', hit)
  {
  }

  /**
   * A task added under an id no task of the active project carries is
   * removed again by deleting that id: the board is as before.
   */
  lemma AddTaskThenDelete(b: Board, title: string, desc: string, freshId: Id)
    requires ActiveIndex(b).Some? ==> forall t :: t in b.projects[ActiveIndex(b).value].tasks ==> t.id != freshId
    ensures DeleteTask(AddTask(b, title, desc, freshId), freshId) == b
  {
    match ActiveIndex(b)
    case None =>
    case Some(i) =>
      var ts := b.projects[i].tasks;
      assert Filter(ts, OtherTask(freshId)) == ts;
      if Text.JsTrim(title) != [] {
        var t := Task(freshId, Text.JsTrim(title), Text.JsTrim(desc), Todo);
        var r := AddTask(b, title, desc, freshId);
        WithTasksKeepsActive(b, i, ts + [t]);
        FilterConcat(ts, [t], OtherTask(freshId));
        assert Filter([t], OtherTask(freshId)) == [];
        assert Filter(ts + [t], OtherTask(freshId)) == ts;
        assert DeleteTask(r, freshId).projects == b.projects;
      } else {
        assert DeleteTask(b, freshId).projects == b.projects;
      }
  }

  /** Dropping the same card on the same column twice is the same as dropping it once. */
  lemma DropIdempotent(b: Board, dragged: Option<Id>, column: Status)
    ensures Drop(Drop(b, dragged, column), dragged, column) == Drop(b, dragged, column)
  {
    var r := Drop(b, dragged, column);
    if r != b {
      var i := ActiveIndex(b).value;
      var ts := b.projects[i].tasks;
      var k := Find(ts, IsTask(dragged.value)).value;
      var ts' := ts[k := ts[k].(status := column)];
      WithTasksKeepsActive(b, i, ts');
      FindSameHits(ts, ts', IsTask(dragged.value));
    }
  }

  /**
   * A project added under a fresh id and then deleted, confirmed, leaves the
   * project list as it was; the first project, if any, is then active.
   */
  lemma AddProjectThenDelete(b: Board, name: string, freshId: Id)
    requires Text.JsTrim(name) != [] && freshId != "" && freshId !in Ids(b.projects)
    ensures DeleteProject(AddProject(b, name, freshId), true).projects == b.projects
  {
    var p := Project(freshId, Text.JsTrim(name), []);
    assert AddProject(b, name, freshId).projects == b.projects + [p];
    FilterConcat(b.projects, [p], OtherProject(freshId));
    assert Filter([p], OtherProject(freshId)) == [];
    forall j | 0 <= j < |b.projects| ensures OtherProject(freshId)(b.projects[j]) {
      assert b.projects[j] in b.projects;
    }
  }
}

=== FILE: seqs.dfy ===
/** The two array primitives the board code leans on: `filter` and `find`. */
module Seqs {
  import opened Maybe

  /** `Array.prototype.filter`: the elements of `s` that satisfy `keep`, in their original order. */
  function Filter<T>(s: seq<T>, keep: T -> bool): (r: seq<T>)
    ensures |r| <= |s|
    ensures forall i :: 0 <= i < |r| ==> r[i] in s && keep(r[i])
    ensures forall i :: 0 <= i < |s| && keep(s[i]) ==> s[i] in r
    ensures (forall i :: 0 <= i < |s| ==> keep(s[i])) ==> r == s
    decreases |s|
  {
    if |s| == 0 then []
    else if keep(s[0]) then [s[0]] + Filter(s[1..], keep)
    else Filter(s[1..], keep)
  }

  /** Filtering distributes over concatenation: the survivors keep their relative order. */
  lemma {:induction false} FilterConcat<T>(a: seq<T>, b: seq<T>, keep: T -> bool)
    ensures Filter(a + b, keep) == Filter(a, keep) + Filter(b, keep)
    decreases |a|
  {
    if |a| == 0 {
      assert a + b == b;
    } else {
      assert (a + b)[1..] == a[1..] + b;
      FilterConcat(a[1..], b, keep);
    }
  }

  /** The index `Array.prototype.find` stops at: the first element satisfying `hit`, if any. */
  function Find<T>(s: seq<T>, hit: T -> bool): (r: Option<nat>)
    ensures r.Some? ==> r.value < |s| && hit(s[r.value])
    ensures r.Some? ==> forall j :: 0 <= j < r.value ==> !hit(s[j])
    ensures r.None? ==> forall j :: 0 <= j < |s| ==> !hit(s[j])
  {
    FindFrom(s, hit, 0)
  }

  function FindFrom<T>(s: seq<T>, hit: T -> bool, i: nat): (r: Option<nat>)
    requires i <= |s|
    requires forall j :: 0 <= j < i ==> !hit(s[j])
    ensures r.Some? ==> i <= r.value < |s| && hit(s[r.value])
    ensures r.Some? ==> forall j :: 0 <= j < r.value ==> !hit(s[j])
    ensures r.None? ==> forall j :: 0 <= j < |s| ==> !hit(s[j])
    decreases |s| - i
  {
    if i == |s| then None
    else if hit(s[i]) then Some(i)
    else FindFrom(s, hit, i + 1)
  }
}

=== FILE: shell.dfy ===
/**
 * The command-line client's read-eval loop: each line typed is skipped when
 * blank, dispatched when it is a slash command, and otherwise sent to the
 * agent, whose reply is shown and scanned for code blocks to offer for
 * saving. Terminal rendering, the file system and the model are outside:
 * what they answer is an input (`World`), what the loop prints is a
 * `Report`.
 */
module Shell {
  import opened Maybe
  import Text
  import Agent
  import Fence

  /** How a line typed at the prompt is read. */
  datatype Input = Blank | Command(cmd: string) | Chat(text: string)

  /**
   * A line that strips to nothing is skipped; one whose raw first character
   * is `/` is a command, compared stripped and lower-cased; anything else is
   * sent to the agent exactly as typed.
   */
  function Classify(line: string): (i: Input)
    ensures i.Blank? <==> Text.AllIn(line, Text.PySpace)
    ensures i.Command? <==> !Text.AllIn(line, Text.PySpace) && line[0] == '/'
    ensures i.Command? ==> i.cmd == Text.Lower(Text.PyStrip(line))
    ensures i.Command? ==> i.cmd != [] && i.cmd[0] == '/' && |i.cmd| <= |line|
    ensures i.Chat? ==> i.text == line && line[0] != '/'
  {
    if Text.PyStrip(line) == [] then Blank
    else if line[0] == '/' then
      var stripped := Text.PyStrip(line);
      assert Text.Leading(line, Text.PySpace) == 0;
      Command(Text.Lower(stripped))
    else Chat(line)
  }

  /** The commands the loop knows, and the rest. */
  datatype Cmd = Quit | ClearHistory | ShowStats | SaveChat | ShowHelp | Unknown(name: string)

  function ParseCommand(cmd: string): (c: Cmd)
    ensures c == Quit <==> cmd == "/exit" || cmd == "/quit"
    ensures c == ClearHistory <==> cmd == "/clear"
    ensures c == ShowStats <==> cmd == "/stats"
    ensures c == SaveChat <==> cmd == "/save_chat"
    ensures c == ShowHelp <==> cmd == "/help"
    ensures c.Unknown? ==> c.name == cmd
  {
    if cmd == "/exit" || cmd == "/quit" then Quit
    else if cmd == "/clear" then ClearHistory
    else if cmd == "/stats" then ShowStats
    else if cmd == "/save_chat" then SaveChat
    else if cmd == "/help" then ShowHelp
    else Unknown(cmd)
  }

  /** What a save offer came to: declined, written, or the write raised. */
  datatype SaveOutcome = Declined | Saved(content: string) | WriteFailed

  /** The exceptions a turn can end in; the loop reports them and reads the next line. */
  datatype Fault =
    | GatewayFailed(msg: string)  // raised by the model call inside `run`
    | UnpackFailed(got: nat)      // a reply of `got` characters unpacked into two names
    | NoUsageGet                  // `.get` called on the one-character "usage" string
    | NoTokenCounters             // `/stats` reads counters the agent never defines
    | NoConfirm                   // `console.confirm`: Rich's `Console` has no such method

  /** What the loop prints, in order. */
  datatype Report =
    | Goodbye
    | HistoryCleared
    | ChatLogSaved(log: seq<Agent.Message>)
    | ChatLogFailed
    | HelpShown
    | UnknownCommand(cmd: string)
    | Reply(content: string)
    | Offer(name: string, outcome: SaveOutcome)
    | InterruptNotice
    | ErrorShown(fault: Fault)

  /** The user's answer to one save offer, and whether the write would succeed. */
  datatype Decision = Decline | Accept(writeOk: bool)

  /**
   * One save offer: the stripped filename is shown; the stripped body is
   * written exactly when the user confirms and the write succeeds.
   */
  function OfferOne(file: (string, string), d: Decision): (r: Report)
    ensures r.Offer? && r.name == Text.PyStrip(file.0)
    ensures r.outcome == Declined <==> d == Decline
    ensures r.outcome.Saved? <==> d == Accept(true)
    ensures r.outcome.Saved? ==> r.outcome.content == Text.PyStrip(file.1)
  {
    var outcome := match d
      case Decline => Declined
      case Accept(ok) => if ok then Saved(Text.PyStrip(file.1)) else WriteFailed;
    Offer(Text.PyStrip(file.0), outcome)
  }

  /**
   * The save loop over the extracted files, in order: file `i` is offered
   * with answer `decide(i)`, and what happens to it depends on that file and
   * that answer only, so a declined offer or a failed write leaves the
   * others as they would have been.
   */
  function OfferFiles(files: seq<(string, string)>, decide: nat -> Decision): (rs: seq<Report>)
    ensures |rs| == |files|
    ensures forall i :: 0 <= i < |files| ==> rs[i] == OfferOne(files[i], decide(i))
    decreases |files|
  {
    if files == [] then []
    else
      var n := |files| - 1;
      var front := OfferFiles(files[..n], decide);
      assert forall i :: 0 <= i < n ==> files[..n][i] == files[i];
      front + [OfferOne(files[n], decide(n))]
  }

  /**
   * The save loop as `main.py` writes it: the filename is stripped, then
   * `console.confirm` is looked up on a Rich `Console`, which has no such
   * method. The `AttributeError` ends the turn at the first file, the loop's
   * handler reports it, and no file is offered or written.
   */
  function OfferFilesAsWritten(files: seq<(string, string)>): (rs: seq<Report>)
    ensures rs == [] <==> files == []
    ensures forall i :: 0 <= i < |rs| ==> !rs[i].Offer?
    ensures rs != [] ==> rs[|rs| - 1] == ErrorShown(NoConfirm)
    ensures files != [] ==> rs == [ErrorShown(NoConfirm)]
  {
    if files == [] then [] else [ErrorShown(NoConfirm)]
  }

  /** A loop and what a turn printed. */
  datatype Outcome = Outcome(loop: Agent.Loop, reports: seq<Report>)

  /**
   * A chat turn as `main.py` writes it: the single string `run` returns is
   * unpacked into `response_content, usage`. That only succeeds for a
   * two-character reply, and then the one-character `usage` is truthy and
   * has no `.get`. Either way the turn ends in an error report and no file
   * is ever offered; the history has still been extended by `run`.
   */
  function ChatTurnAsWritten(l: Agent.Loop, text: string, chat: Agent.Gateway): (o: Outcome)
    ensures o.loop == Agent.Run(l, text, chat).loop
    ensures o.reports != [] && o.reports[|o.reports| - 1].ErrorShown?
    ensures forall i :: 0 <= i < |o.reports| ==> !o.reports[i].Offer?
    ensures |o.reports| <= 2
    ensures var res := Agent.Run(l, text, chat).result;
      forall i :: 0 <= i < |o.reports| && o.reports[i].Reply? ==>
        res.Success? && |res.value| == 2 && o.reports[i].content == res.value[..1]
    ensures var res := Agent.Run(l, text, chat).result;
      res.Failure? ==> o.reports == [ErrorShown(GatewayFailed(res.error))]
    ensures var res := Agent.Run(l, text, chat).result;
      res.Success? && |res.value| != 2 ==> o.reports == [ErrorShown(UnpackFailed(|res.value|))]
  {
    var t := Agent.Run(l, text, chat);
    match t.result
    case Failure(e) => Outcome(t.loop, [ErrorShown(GatewayFailed(e))])
    case Success(content) =>
      if |content| != 2 then Outcome(t.loop, [ErrorShown(UnpackFailed(|content|))])
      else Outcome(t.loop, [Reply(content[..1]), ErrorShown(NoUsageGet)])
  }

  /**
   * A chat turn as intended: the reply is shown whole, then every code
   * block the detector finds in it is offered for saving, in order.
   */
  function ChatTurn(l: Agent.Loop, text: string, chat: Agent.Gateway, decide: nat -> Decision): (o: Outcome)
    ensures o.loop == Agent.Run(l, text, chat).loop
    ensures Agent.Run(l, text, chat).result.Failure? ==> o.reports == [ErrorShown(GatewayFailed(Agent.Run(l, text, chat).result.error))]
    ensures Agent.Run(l, text, chat).result.Success? ==>
      var content := Agent.Run(l, text, chat).result.value;
      && o.reports != [] && o.reports[0] == Reply(content)
      && o.reports[1..] == OfferFiles(Fence.Extract(content), decide)
  {
    var t := Agent.Run(l, text, chat);
    match t.result
    case Failure(e) => Outcome(t.loop, [ErrorShown(GatewayFailed(e))])
    case Success(content) =>
      Outcome(t.loop, [Reply(content)] + OfferFiles(Fence.Extract(content), decide))
  }

  /** The loop's state: the agent, and whether it is still reading lines. */
  datatype Shell = Shell(loop: Agent.Loop, running: bool)

  /** What the outside world answers during one turn. */
  datatype World = World(chat: Agent.Gateway, chatLogWritable: bool, decide: nat -> Decision)

  /** A line typed at the prompt, or Ctrl-C while waiting for one. */
  datatype Event = Entered(line: string) | Interrupted

  /** The event ends the loop: it is `/exit` or `/quit`, in any case, with surrounding blanks. */
  predicate IsQuit(e: Event) {
    e.Entered? && Classify(e.line).Command? && ParseCommand(Classify(e.line).cmd) == Quit
  }

  /** What a command does to the loop and prints. */
  function RunCommand(s: Shell, c: Cmd, w: World): (r: (Shell, seq<Report>))
    requires s.running
    ensures r.0.running <==> c != Quit
    ensures r.0.loop == if c == ClearHistory then Agent.Clear(s.loop) else s.loop
    ensures |r.1| == 1
    ensures c == Quit ==> r.1 == [Goodbye]
    ensures c == ClearHistory ==> r.1 == [HistoryCleared]
    ensures c == ShowStats ==> r.1 == [ErrorShown(NoTokenCounters)]
    ensures c == SaveChat ==> r.1 == [if w.chatLogWritable then ChatLogSaved(s.loop.history) else ChatLogFailed]
    ensures c == ShowHelp ==> r.1 == [HelpShown]
    ensures c.Unknown? ==> r.1 == [UnknownCommand(c.name)]
  {
    match c
    case Quit => (s.(running := false), [Goodbye])
    case ClearHistory => (s.(loop := Agent.Clear(s.loop)), [HistoryCleared])
    case ShowStats => (s, [ErrorShown(NoTokenCounters)])
    case SaveChat => (s, [if w.chatLogWritable then ChatLogSaved(s.loop.history) else ChatLogFailed])
    case ShowHelp => (s, [HelpShown])
    case Unknown(name) => (s, [UnknownCommand(name)])
  }

  /**
   * One pass of the loop. Blank lines are skipped; commands never reach the
   * agent's `run`, so the history can only shrink under them, and only
   * `/clear` changes it; chat text is a turn; Ctrl-C is reported and the
   * loop goes on. Only a quit command stops it.
   */
  function Step(s: Shell, e: Event, w: World): (r: (Shell, seq<Report>))
    requires s.running
    ensures r.0.running <==> !IsQuit(e)
    ensures e == Interrupted ==> r == (s, [InterruptNotice])
    ensures e.Entered? && Classify(e.line).Blank? ==> r == (s, [])
    ensures e.Entered? && Classify(e.line).Command? ==>
      && r == RunCommand(s, ParseCommand(Classify(e.line).cmd), w)
      && |r.0.loop.history| <= |s.loop.history|
      && (r.0.loop != s.loop ==> ParseCommand(Classify(e.line).cmd) == ClearHistory)
    ensures e.Entered? && Classify(e.line).Chat? ==>
      && r.0.loop == Agent.Run(s.loop, e.line, w.chat).loop && |r.0.loop.history| > |s.loop.history|
      && r.1 == ChatTurn(s.loop, e.line, w.chat, w.decide).reports
  {
    match e
    case Interrupted => (s, [InterruptNotice])
    case Entered(line) =>
      match Classify(line)
      case Blank => (s, [])
      case Command(cmd) => RunCommand(s, ParseCommand(cmd), w)
      case Chat(text) =>
        var o := ChatTurn(s.loop, text, w.chat, w.decide);
        (Shell(o.loop, true), o.reports)
  }

  /**
   * The loop over a sequence of events, turn `i` seeing world `worlds(i)`,
   * until a quit command; later events are never read.
   */
  function Session(s: Shell, events: seq<Event>, worlds: nat -> World): (r: (Shell, seq<Report>))
    ensures !s.running ==> r == (s, [])
    ensures r.0.running ==> s.running && forall i :: 0 <= i < |events| ==> !IsQuit(events[i])
    decreases |events|
  {
    if events == [] || !s.running then (s, [])
    else
      var (s', out) := Step(s, events[0], worlds(0));
      var (s'', more) := Session(s', events[1..], (i: nat) => worlds(i + 1));
      assert forall i :: 0 < i < |events| ==> events[1..][i - 1] == events[i];
      (s'', out + more)
  }

  /**
   * The call a line makes on the agent, if any: chat text is a `run` whose
   * gateway answers what `chat` answers for the history it is handed, and
   * `/clear` is a `clear_history`. Blank lines, Ctrl-C and every other
   * command leave the agent alone.
   */
  function EventOps(l: Agent.Loop, e: Event, w: World): (ops: seq<Agent.Op>)
    ensures |ops| <= 1
  {
    match e
    case Interrupted => []
    case Entered(line) =>
      match Classify(line)
      case Blank => []
      case Command(cmd) => if ParseCommand(cmd) == ClearHistory then [Agent.Reset] else []
      case Chat(text) => [Agent.Say(text, w.chat(l.history + [Agent.Message(Agent.User, text)]))]
  }

  /** The calls a session makes on the agent, in order, up to the first quit command. */
  function SessionOps(l: Agent.Loop, events: seq<Event>, worlds: nat -> World): (ops: seq<Agent.Op>)
    ensures |ops| <= |events|
    decreases |events|
  {
    if events == [] || IsQuit(events[0]) then []
    else
      var head := EventOps(l, events[0], worlds(0));
      head + SessionOps(Agent.ReplayFrom(l, head), events[1..], (i: nat) => worlds(i + 1))
  }

  /** One pass of the loop does to the agent exactly the calls its line makes. */
  lemma StepReplays(s: Shell, e: Event, w: World)
    requires s.running
    ensures Step(s, e, w).0.loop == Agent.ReplayFrom(s.loop, EventOps(s.loop, e, w))
  {
    var ops := EventOps(s.loop, e, w);
    if ops != [] {
      assert ops[..0] == [];
    }
  }

  /**
   * The loop drives the agent model: what a session leaves in the agent is
   * the agent after replaying, in order, the `run` of every chat line and
   * the `clear_history` of every `/clear` typed before the first quit.
   */
  lemma {:induction false} SessionReplays(s: Shell, events: seq<Event>, worlds: nat -> World)
    requires s.running
    ensures Session(s, events, worlds).0.loop == Agent.ReplayFrom(s.loop, SessionOps(s.loop, events, worlds))
    decreases |events|
  {
    if events != [] {
      var s' := Step(s, events[0], worlds(0)).0;
      var w' := (i: nat) => worlds(i + 1);
      StepReplays(s, events[0], worlds(0));
      if IsQuit(events[0]) {
        assert Session(s', events[1..], w') == (s', []);
      } else {
        var head := EventOps(s.loop, events[0], worlds(0));
        SessionReplays(s', events[1..], w');
        Agent.ReplayConcat(s.loop, head, SessionOps(s'.loop, events[1..], w'));
      }
    }
  }

  /** No session changes the agent's first history entry, the system prompt it was built with. */
  lemma SessionKeepsFirst(s: Shell, events: seq<Event>, worlds: nat -> World)
    requires s.running
    ensures Session(s, events, worlds).0.loop.history[0] == s.loop.history[0]
  {
    SessionReplays(s, events, worlds);
    Agent.FirstEntryStays(s.loop, SessionOps(s.loop, events, worlds));
  }

  /** Without a quit command among the events the loop is still running at the end. */
  lemma {:induction false} KeepsRunning(s: Shell, events: seq<Event>, worlds: nat -> World)
    requires s.running
    requires forall i :: 0 <= i < |events| ==> !IsQuit(events[i])
    ensures Session(s, events, worlds).0.running
    decreases |events|
  {
    if events != [] {
      var s' := Step(s, events[0], worlds(0)).0;
      assert forall i :: 0 <= i < |events| - 1 ==> events[1..][i] == events[i + 1];
      KeepsRunning(s', events[1..], (i: nat) => worlds(i + 1));
    }
  }

  /** A running loop reads its first event with `Step` and the rest with the session that follows. */
  lemma SessionCons(s: Shell, events: seq<Event>, worlds: nat -> World)
    requires s.running && events != []
    ensures var (s', out) := Step(s, events[0], worlds(0));
      var (s'', more) := Session(s', events[1..], (i: nat) => worlds(i + 1));
      Session(s, events, worlds) == (s'', out + more)
  {
  }

  /** The loop stops at the first quit command: what follows it is never read. */
  lemma {:induction false} StopsAtQuit(s: Shell, events: seq<Event>, worlds: nat -> World, k: nat)
    requires k < |events| && IsQuit(events[k])
    ensures !Session(s, events, worlds).0.running
    ensures Session(s, events, worlds) == Session(s, events[..k + 1], worlds)
    decreases k
  {
    if s.running {
      var front := events[..k + 1];
      var s' := Step(s, events[0], worlds(0)).0;
      var w' := (i: nat) => worlds(i + 1);
      SessionCons(s, events, worlds);
      SessionCons(s, front, worlds);
      assert front[0] == events[0];
      if k > 0 {
        assert events[1..][k - 1] == events[k];
        StopsAtQuit(s', events[1..], w', k - 1);
        assert front[1..] == events[1..][..k];
      } else {
        assert !s'.running;
        assert Session(s', events[1..], w') == (s', []);
        assert Session(s', front[1..], w') == (s', []);
      }
    }
  }

}

=== FILE: shell_examples.dfy ===
/**
 * Concrete runs of the command loop: how particular lines are read, and
 * what a reply carrying the system prompt's own example block leads to in
 * the turn as written and in the corrected turn.
 */
module ShellExamples {
  import opened Maybe
  import Text
  import Agent
  import Fence
  import FenceRoundTrip
  import opened Shell

  /** A command is recognised by its raw first character, then compared stripped and lower-cased. */
  lemma PaddedUpperExit()
    ensures Classify("/EXIT ") == Command("/exit") && IsQuit(Entered("/EXIT "))
  {
    var line := "/EXIT ";
    assert Text.Leading(line, Text.PySpace) == 0 by {
      assert !Text.PySpace(line[0]);
    }
    assert Text.Trailing(line, Text.PySpace) == 1 by {
      assert line[..5] == "/EXIT";
      assert Text.PySpace(line[5]) && !Text.PySpace(line[..5][4]);
    }
    assert Text.PyStrip(line) == line[..5] == "/EXIT";
    var low := Text.Lower("/EXIT");
    assert low[0] == '/' && low[1] == 'e' && low[2] == 'x' && low[3] == 'i' && low[4] == 't';
    assert low == "/exit";
  }

  /** A blank before the slash makes the line chat text, sent to the agent as typed. */
  lemma IndentedExitIsChat()
    ensures Classify(" /exit") == Chat(" /exit") && !IsQuit(Entered(" /exit"))
  {
    assert !Text.AllIn(" /exit", Text.PySpace) by {
      assert !Text.PySpace(" /exit"[1]);
    }
  }

  lemma BlankLine()
    ensures Classify(" \t\n") == Blank
  {
    assert Text.AllIn(" \t\n", Text.PySpace);
  }

  /** Only the listed spellings are known; others are reported back lower-cased. */
  lemma MixedCaseCommands()
    ensures Classify("/Clear") == Command("/clear") && ParseCommand("/clear") == ClearHistory
    ensures ParseCommand("/reset") == Unknown("/reset")
  {
    Text.TrimFixed("/Clear", Text.PySpace);
    assert Text.Lower("/Clear") == "/clear";
  }

  /** A gateway that answers every request with the text of the system prompt. */
  function Echo(): Agent.Gateway {
    (_: seq<Agent.Message>) => Success(Agent.SystemPrompt)
  }

  /** The user accepts every offer and every write succeeds. */
  function AcceptAll(): nat -> Decision {
    (_: nat) => Accept(true)
  }

  /**
   * As written, a reply that holds a code block never reaches the save loop:
   * the unpacking of the reply string fails first.
   */
  lemma AsWrittenDropsFiles(text: string)
    ensures ChatTurnAsWritten(Agent.New(), text, Echo()).reports == [ErrorShown(UnpackFailed(|Agent.SystemPrompt|))]
  {
  }

  /** A gateway that answers every request with `ok`. */
  function SayOk(): Agent.Gateway {
    (_: seq<Agent.Message>) => Success("ok")
  }

  /**
   * As written, a two-character reply is the one that unpacks: its first
   * character is shown as the reply, and its second, a non-empty string, is
   * then asked for `.get`.
   */
  lemma AsWrittenTwoCharacters(text: string)
    ensures ChatTurnAsWritten(Agent.New(), text, SayOk()).reports == [Reply("o"), ErrorShown(NoUsageGet)]
  {
    assert "ok"[..1] == "o";
  }

  /** Accepting the `hello.py` file saves its line under its name. */
  lemma HelloOffer()
    ensures OfferFiles([("hello.py", "print(\"Hello World\")")], AcceptAll()) == [Offer("hello.py", Saved("print(\"Hello World\")"))]
  {
    var file := ("hello.py", "print(\"Hello World\")");
    Text.TrimFixed(file.0, Text.PySpace);
    Text.TrimFixed(file.1, Text.PySpace);
    var offers := OfferFiles([file], AcceptAll());
    assert offers[0] == OfferOne(file, Accept(true));
  }

  /**
   * The system prompt's example block, once extracted, is never offered as
   * written: looking up `console.confirm` fails at that first file. The
   * corrected save loop offers it and, accepted, saves it.
   */
  lemma AsWrittenConfirmFails()
    ensures OfferFilesAsWritten(Fence.Extract(Agent.SystemPrompt)) == [ErrorShown(NoConfirm)]
    ensures OfferFiles(Fence.Extract(Agent.SystemPrompt), AcceptAll())
      == [Offer("hello.py", Saved("print(\"Hello World\")"))]
  {
    FenceRoundTrip.ExtractSystemPrompt();
    HelloOffer();
  }

  /** Corrected, the same reply is shown and its `hello.py` block is saved with its one line. */
  lemma CorrectedSavesHello(text: string)
    ensures var o := ChatTurn(Agent.New(), text, Echo(), AcceptAll());
      o.reports == [Reply(Agent.SystemPrompt), Offer("hello.py", Saved("print(\"Hello World\")"))]
  {
    var o := ChatTurn(Agent.New(), text, Echo(), AcceptAll());
    assert Agent.Run(Agent.New(), text, Echo()).result == Success(Agent.SystemPrompt);
    FenceRoundTrip.ExtractSystemPrompt();
    HelloOffer();
    assert o.reports == [o.reports[0]] + o.reports[1..];
  }
}

=== FILE: text.dfy ===
/**
 * Character classes and the string helpers both programs use: Python's
 * `str.strip()` / regex `\s`, JavaScript's `String.prototype.trim()`, and the
 * lower-casing applied to slash commands.
 */
module Text {

  /**
   * The 29 characters for which Python's `str.isspace()` holds; in a `str`
   * pattern the regex class `\s` matches exactly these.
   */
  predicate PySpace(c: char) {
    || c == ' '
    || ('\t' <= c <= '\r')
    || ('\U{1C}' <= c <= '\U{1F}')
    || c == '\U{85}' || c == '\U{A0}' || c == '\U{1680}'
    || ('\U{2000}' <= c <= '\U{200A}')
    || c == '\U{2028}' || c == '\U{2029}' || c == '\U{202F}' || c == '\U{205F}' || c == '\U{3000}'
  }

  /**
   * ECMAScript WhiteSpace and LineTerminator code points, the set
   * `String.prototype.trim()` removes.
   */
  predicate JsSpace(c: char) {
    || c == ' '
    || ('\t' <= c <= '\r')
    || c == '\U{A0}' || c == '\U{1680}'
    || ('\U{2000}' <= c <= '\U{200A}')
    || c == '\U{2028}' || c == '\U{2029}' || c == '\U{202F}' || c == '\U{205F}' || c == '\U{3000}'
    || c == '\U{FEFF}'
  }

  /** Every character of `s` is in class `p`. */
  predicate AllIn(s: string, p: char -> bool) {
    forall i :: 0 <= i < |s| ==> p(s[i])
  }

  /** Length of the leading run of class-`p` characters in `s`. */
  function Leading(s: string, p: char -> bool): (n: nat)
    ensures n <= |s|
    ensures forall k :: 0 <= k < n ==> p(s[k])
    ensures n == |s| || !p(s[n])
    decreases |s|
  {
    if |s| > 0 && p(s[0]) then 1 + Leading(s[1..], p) else 0
  }

  /** Length of the trailing run of class-`p` characters in `s`. */
  function Trailing(s: string, p: char -> bool): (n: nat)
    ensures n <= |s|
    ensures forall k :: |s| - n <= k < |s| ==> p(s[k])
    ensures n == |s| || !p(s[|s| - n - 1])
    decreases |s|
  {
    if |s| > 0 && p(s[|s| - 1]) then 1 + Trailing(s[..|s| - 1], p) else 0
  }

  /**
   * Both trims: the infix of `s` left once the leading and trailing runs of
   * class-`p` characters are cut; empty exactly when `s` is all class-`p`.
   */
  function Trim(s: string, p: char -> bool): (r: string)
    ensures r == [] <==> AllIn(s, p)
    ensures r != [] ==> !p(r[0]) && !p(r[|r| - 1])
    ensures Leading(s, p) + |r| <= |s| && r == s[Leading(s, p)..Leading(s, p) + |r|]
    ensures forall k :: Leading(s, p) + |r| <= k < |s| ==> p(s[k])
  {
    var i := Leading(s, p);
    if i == |s| then []
    else
      var j := |s| - Trailing(s, p);
      assert i < j;
      s[i..j]
  }

  /** Trimming leaves alone a string that already starts and ends outside the class. */
  lemma TrimFixed(s: string, p: char -> bool)
    requires s == [] || (!p(s[0]) && !p(s[|s| - 1]))
    ensures Trim(s, p) == s
  {
  }

  /** Trimming twice is trimming once. */
  lemma TrimIdempotent(s: string, p: char -> bool)
    ensures Trim(Trim(s, p), p) == Trim(s, p)
  {
    TrimFixed(Trim(s, p), p);
  }

  /** Python's `str.strip()` with no argument. */
  function PyStrip(s: string): string {
    Trim(s, PySpace)
  }

  /** JavaScript's `String.prototype.trim()`. */
  function JsTrim(s: string): string {
    Trim(s, JsSpace)
  }

  /** `str.lower()` restricted to ASCII letters; other characters are kept as they are. */
  function LowerChar(c: char): char {
    if 'A' <= c <= 'Z' then (c as int + 32) as char else c
  }

  function Lower(s: string): (r: string)
    ensures |r| == |s|
    ensures forall i :: 0 <= i < |s| ==> r[i] == LowerChar(s[i])
  {
    seq(|s|, i requires 0 <= i < |s| => LowerChar(s[i]))
  }

  /** Lower-casing twice is lower-casing once, and it leaves no ASCII capital behind. */
  lemma LowerIdempotent(s: string)
    ensures Lower(Lower(s)) == Lower(s)
    ensures forall i :: 0 <= i < |s| ==> !('A' <= Lower(s)[i] <= 'Z')
  {
  }
}
